=== FILE: README.md ===
# Musi stream queue — a Dafny model

Musi lets a creator keep a queue of YouTube links that fans submit and
upvote; the creator's "skip" plays the unplayed link with the most upvotes.
This project models the server side of that queue as pure transitions over
one immutable store, together with the string and sequence logic of the
two pages that drive it:

- the link recogniser `YT_REGEX` and the two ways of pulling a video id
  out of a link, the server's split on `?v=` and the client's split on
  `v=` then `&` (`YtLink`, built on JavaScript `split`/`includes`/`indexOf`
  in `JsString`);
- the store — stream rows in store order, upvote rows as a set of
  (user, stream) pairs, one "current stream" pointer per creator, the user
  table — and its invariants (`Store`); a stream's vote count is always the
  number of upvote rows that reference it, never a stored number;
- the routes: submit and list-by-creator (`StreamsRoute`), list with counts
  (`GetRoute`), upvote (`UpvoteRoute`), downvote (`DownvoteRoute`) and skip
  (`SkipRoute`). Each writing route is a function from a store and the
  request to an `Outcome` — a response with status and body, or `Uncaught`
  for an exception that escapes the handler — and the next store; the two
  read routes return only the `Outcome`;
- the pages: the shared link form and row shape (`ClientForm`), the
  creator page (`StreamView`) and the dashboard (`Dashboard`).

Inputs the handlers get from outside become parameters: the session's email
(`Option<Email>`), the body after schema parsing (`None` when rejected), the
id the store assigns, the clock (`Timestamp`), a `fault` flag for a store
failure, and for skip a `choice` among the streams tied for the most
upvotes.

Behaviour reproduced as the code has it, not as one might expect it:

- GET /api/streams lists played streams too: its query has no `played`
  filter.
- The stored `extractedId` is whatever follows the first `?v=` up to any
  second `?v=`, trailing `&…` parameters included, and is absent when the link
  has no `?v=`, as a `youtu.be/<id>` link usually has not. A `youtu.be` link
  with a `?v=` query gets the query's value as its id, on the server and in
  the page's preview alike.
- Downvote never answers with success: after deleting the row it parses the
  already consumed body again, which throws (`Uncaught`).
- Skip answers with the stream as read before it was marked played.
- Skip does not break ties; any stream with the top count may be chosen.
- The creator page never sees counts, marks or an active stream, because
  GET /api/streams sends none of them; the dashboard posts every link for
  one hard-coded creator id.

## Model

| member | source | states |
|---|---|---|
| JsString.SplitSecond | app/api/streams/route.ts:25 | `split(sep)[1]` is absent exactly when `sep` does not occur, and otherwise is the text after the first occurrence up to the next one |
| JsString.SplitHead | app/components/StreamView.tsx:106 | `split(sep)[0]` is the longest prefix in which no occurrence of `sep` starts: the whole string, or the part before the first occurrence |
| JsString.Includes | app/components/StreamView.tsx:106 | `includes(sep)` holds exactly when `sep` occurs somewhere |
| YtLink.MatchesIffYtLink | app/api/streams/route.ts:4 | the hand-written recogniser accepts a link exactly when it is optional scheme, `www.`, `m.`, one of the YouTube routes, an 11-character id of word characters or `-`, and a whitespace-free tail |
| YtLink.WatchLinkMatches | app/api/streams/route.ts:4 | every `https://www.youtube.com/watch?v=` link with a valid id and a whitespace-free tail is accepted |
| YtLink.NoYoutuRefused | app/api/streams/route.ts:4 | a link in which `youtu` occurs nowhere is refused, whatever its scheme or host, because every route of the pattern begins with `youtu` |
| YtLink.OtherHostRefused | app/api/streams/route.ts:4 | a worked example: `https://example.com/notyoutube`, whose path mentions YouTube, is refused |
| YtLink.ServerExtractedId | app/api/streams/route.ts:25 | the stored id is absent when the link has no `?v=`, otherwise it is the text after the first `?v=` up to any second one |
| YtLink.ServerIdOfWatchLink | app/api/streams/route.ts:25 | for a watch link with a tail that has no further `?v=`, the stored id is the video id followed by the whole tail, `&…` parameters included |
| YtLink.ShortLinkHasNoId | app/api/streams/route.ts:25 | a `https://youtu.be/<id>` link whose tail has no `=` is accepted, gets no stored id and an empty client preview id |
| YtLink.ShortLinkWithQueryId | app/api/streams/route.ts:25 | a `https://youtu.be/<id>?v=<x>` link, with `x` free of `=`, `&` and whitespace, is accepted, and both the stored id and the client preview id are `x`, not the path's id |
| YtLink.PreviewId | app/components/StreamView.tsx:106 | the preview id is empty when the link has no `v=`, otherwise the text after the first `v=` cut at the next `v=` and at the first `&`, and never contains `&` |
| YtLink.PreviewIdOfWatchLink | app/components/StreamView.tsx:106 | for a watch link with no tail or an `&…` tail the preview id is exactly the video id |
| Store.AddVoteCount | app/api/streams/upvote/route.ts:40-45 | inserting a new upvote row raises the count of its stream by one and no other count |
| Store.RemoveVoteCount | app/api/streams/downvote/route.ts:29-36 | deleting an existing upvote row lowers the count of its stream by one and no other count |
| StreamsRoute.Submit | app/api/streams/route.ts:12-50 | status is 200 or 411; 200 exactly when the body parsed, the link matches, the id is new, the creator exists and the store did not fail; a bad link answers "Wrong URl format"; a failure changes nothing; success appends one unplayed "Youtube" stream with the creator, the verbatim url and the server's extracted id, and answers its id |
| StreamsRoute.ListByCreator | app/api/streams/route.ts:52-61 | exactly the streams whose owner is the `creatorId` parameter (or "" when missing), played ones included, in store order; a store failure escapes the handler |
| StreamsRoute.AppendPreservesValid | app/api/streams/route.ts:27-34 | appending an unplayed row with a fresh id and an existing owner keeps the store valid and only appends |
| StreamsRoute.SubmitPreservesValid | app/api/streams/route.ts:27-34 | a submission keeps ids unique and references intact, and only appends rows |
| StreamsRoute.SubmitStartsAtZero | app/api/streams/route.ts:27-34 | a stream that was just added has vote count 0, since no upvote row can name its fresh id |
| StreamsRoute.SubmitThenList | app/api/streams/route.ts:52-61 | after an accepted submission the creator's listing is the old one with the new stream at its end |
| GetRoute.ListWithCounts | app/api/streams/get/route.ts:5-27 | one entry per stream of every creator, in store order, with its id, title and the number of upvote rows for it; a store failure answers 500 "Error fetching streams" |
| UpvoteRoute.Upvote | app/api/streams/upvote/route.ts:10-60 | 401 without a session, 403 for an unknown email, 500 for a rejected body, 400 "Already upvoted" for an existing pair, 500 for a missing stream or store failure, and 200 exactly when the pair is new, the stream exists and the store did not fail; success adds exactly that pair; streams, pointers and users never change |
| UpvoteRoute.UpvoteCounts | app/api/streams/upvote/route.ts:40-45 | a successful upvote raises that stream's count by one and leaves every other count alone |
| UpvoteRoute.UpvoteTwiceFails | app/api/streams/upvote/route.ts:30-45 | repeating a successful upvote answers 400 and changes nothing |
| UpvoteRoute.UpvotePreservesValid | app/api/streams/upvote/route.ts:40-53 | an upvote keeps the store valid and leaves every stream row as it was |
| UpvoteRoute.UpvoteRaisesListedCount | app/api/streams/get/route.ts:16-20 | after a successful upvote the count listing shows the voted stream one higher and every other stream unchanged |
| DownvoteRoute.Downvote | app/api/streams/downvote/route.ts:10-44 | every answer is 403 and leaves the store unchanged; the handler throws exactly when the email is present, the user known, the body parsed, the pair exists and the store did not fail, and then the pair is already deleted |
| DownvoteRoute.DownvoteCounts | app/api/streams/downvote/route.ts:29-36 | a deletion that goes through lowers that stream's count by one and leaves every other count alone |
| DownvoteRoute.DownvoteWithoutVoteFails | app/api/streams/downvote/route.ts:29-40 | with no such pair the keyed delete fails and the answer is 403 "Error while upvoting stream" with no change |
| DownvoteRoute.UpvoteThenDownvote | app/api/streams/downvote/route.ts:29-36 | an upvote followed by a downvote of the same pair gives back the original store |
| DownvoteRoute.DownvotePreservesValid | app/api/streams/downvote/route.ts:29-36 | a downvote keeps the store valid and touches no stream row |
| SkipRoute.MaxCount | app/api/streams/skip/route.ts:27-30 | the result is at least every stream's count and, for a non-empty list, is the count of one of them |
| SkipRoute.TopCandidates | app/api/streams/skip/route.ts:27-30 | exactly the caller's unplayed streams that no other unplayed stream of the caller out-votes; empty exactly when the caller has no unplayed stream |
| SkipRoute.Skip | app/api/streams/skip/route.ts:5-59 | 401 without an email, 404 for an unknown user, 404 when the caller has no unplayed stream, 500 on a failed transaction, each with no change; 200 exactly otherwise, answering a top stream as it was before the update; votes and users never change |
| SkipRoute.MarkPlayed | app/api/streams/skip/route.ts:45-48 | the row with the id becomes played at `now`; every other row is unchanged and the order is kept |
| SkipRoute.SkipMarksSelected | app/api/streams/skip/route.ts:39-49 | a successful skip points the caller's pointer at the answered stream and marks only that stream played at `now` |
| SkipRoute.SkipCanPickAnyTop | app/api/streams/skip/route.ts:27-30 | every stream tied for the most upvotes is the answer for some choice of the store |
| SkipRoute.AdvancePreservesValid | app/api/streams/skip/route.ts:39-49 | the two writes keep the store valid and never un-play or alter a played row |
| SkipRoute.SkipPreservesValid | app/api/streams/skip/route.ts:5-59 | every skip, whatever its answer, keeps the store valid and is an evolution of it |
| SkipRoute.SkipPlaysOne | app/api/streams/skip/route.ts:39-49 | a successful skip removes exactly one stream from the caller's unplayed list |
| SkipRoute.PendingAllowsSkip | app/api/streams/skip/route.ts:27-37 | while the caller has an unplayed stream, a skip without a store failure answers 200 |
| SkipRoute.DrainedRefusesSkip | app/api/streams/skip/route.ts:32-37 | once the caller has no unplayed stream, a skip answers "No streams available to skip" |
| SkipRoute.SkipsDrainQueue | app/api/streams/skip/route.ts:27-49 | k skips by a creator with k unplayed streams all answer 200, leave none unplayed, and the final store is an evolution of the first |
| SkipRoute.SkipAfterDrain | app/api/streams/skip/route.ts:27-49 | the skip after those k answers 404 |
| ClientForm.NormaliseVote | app/components/StreamView.tsx:53-58 | "upvote" and "downvote" keep their meaning, a missing field or any other text means no vote |
| ClientForm.NormaliseMarkText | app/dashboard/page.tsx:43-48 | normalising the text of a mark gives the mark back |
| ClientForm.InputChange | app/components/StreamView.tsx:102-108 | the link is kept, the error cleared, and the preview id is empty without `v=` and never contains `&` |
| ClientForm.SubmitGuard | app/components/StreamView.tsx:113-119 | a post is sent exactly when the preview id is non-empty and the link matches the pattern, with the page's creator id and the verbatim link; otherwise only the error is shown |
| ClientForm.AfterPostGuard | app/components/StreamView.tsx:113-125 | after a post the guard sent, an accepted link leaves a form the guard refuses, so it is not posted twice; a rejected one leaves a form that re-posts the same body |
| ClientForm.PostedLinkPassesServer | app/api/streams/route.ts:15-41 | a posted link is never refused for its format, and is accepted exactly when the id is new, the creator exists and the store does not fail |
| ClientForm.WatchLinkIsPosted | app/components/StreamView.tsx:102-119 | a canonical watch link previews its video id and is posted verbatim |
| ClientForm.ShortLinkIsRefused | app/components/StreamView.tsx:113-116 | a `https://youtu.be/<id>` link whose tail has no `=` is refused by the page although the server accepts its format |
| ClientForm.ShortLinkWithQueryIsPosted | app/components/StreamView.tsx:102-119 | a `https://youtu.be/<id>?v=<x>` link with a non-empty `x` is posted verbatim, previews `x`, and an accepted post stores `x` as its id |
| StreamView.ToVideo | app/components/StreamView.tsx:49-60 | a row becomes a video with its id, title and extracted id, its `upvotes` or 0 when missing, and its normalised mark |
| StreamView.RefreshQueue | app/components/StreamView.tsx:46-61 | the queue holds every fetched row except the active one, all rows in order when there is no active stream, and never the active id |
| StreamView.RefreshQueueRemovesActive | app/components/StreamView.tsx:48 | with unique ids, the queue is the fetched list with only the active row cut out, order kept |
| StreamView.RefreshQueueUnknownActive | app/components/StreamView.tsx:48 | an active id absent from the fetch removes nothing |
| StreamView.FindById | app/components/StreamView.tsx:68-70 | the first row with the id, absent exactly when no row has it |
| StreamView.RefreshCurrent | app/components/StreamView.tsx:64-85 | the playing video changes only to the active stream, only when not already playing it, and only to a fetched row; it is the active stream whenever the fetch contains it |
| StreamView.RefreshCurrentIdempotent | app/components/StreamView.tsx:64-85 | refreshing twice with the same response is refreshing once |
| StreamView.Refresh | app/components/StreamView.tsx:37-90 | a failed fetch only sets "Failed to load streams"; a successful one rebuilds queue and playing video and keeps the error line |
| StreamView.ViewOfCreatorListing | app/components/StreamView.tsx:37-61 | fed from the list-by-creator route, the queue is all the creator's streams at 0 votes with no mark, and the playing video never changes |
| StreamView.PlayNext | app/components/StreamView.tsx:142-159 | on a non-empty queue the head plays, the queue is its tail and the skip route is called, a failed call showing the error; an empty queue changes nothing and calls nothing |
| StreamView.PressNextWalksQueue | app/components/StreamView.tsx:144-147 | k presses play the k-th video and leave the queue from position k on |
| StreamView.DisplayTitle | app/components/StreamView.tsx:267-269 | a title of at most 35 characters is shown as is; a longer one as its first 35 characters and "..." |
| StreamView.DisplayTitleIdempotent | app/components/StreamView.tsx:267-269 | truncating a shown title again changes nothing |
| Dashboard.DashRefresh | app/dashboard/page.tsx:38-50 | one entry per fetched row, in order, with id, title, `upvotes` copied with no default, and the normalised mark |
| Dashboard.DashLoad | app/dashboard/page.tsx:32-55 | a successful fetch replaces the queue with the fetched rows and keeps player and error; a failed one keeps the queue and only shows "Failed to load streams" |
| Dashboard.DashPlayNext | app/dashboard/page.tsx:112-119 | on a non-empty queue the head's id is embedded and the queue is its tail; on an empty queue the player is cleared |
| Dashboard.DashPressNextWalksQueue | app/dashboard/page.tsx:112-119 | k presses embed the k-th video and leave the rest; past the end the player is empty |
| Dashboard.DashboardOfCounts | app/dashboard/page.tsx:38-50 | fed from the count route, the dashboard lists every stream of every creator in store order with its live count, and no vote button is disabled |
| Dashboard.DashSubmit | app/dashboard/page.tsx:77-87 | the page posts exactly when the preview id is non-empty and the link matches, always for the hard-coded creator |
| Dashboard.DashSubmitLandsWithFixedCreator | app/dashboard/page.tsx:83-87 | an accepted dashboard link always lands in the hard-coded creator's queue, which must exist |

## Left out

- The session lookup (`getServerSession`) is an input: the session's email, or none.
- UpvoteRoute.Upvote: a session with a user but no email is not modelled. Prisma then drops the `email` filter and the lookup returns some user.
- The `fault` flags stand for a failure of the write (or, for the list routes, of the read). A failed user lookup is not modelled. In the upvote and downvote routes that lookup sits outside the `try` and would escape the handler.
- UpvoteRoute.Upvote: a failure of the empty `stream.update` after a successful insert is not modelled. The row would then stay, with a 500 answer.
- Prisma mechanics are abstract. The store's id generation is the `newId` input. A key or foreign-key violation is a failed create or delete. `findMany` and `findFirst` return rows in store order.
- The schema is not part of this model. A new stream gets no title (`None`). Whether `extractedId` may be absent is assumed (it is absent when the link has no `?v=`).
- No route fills in a stream's title or thumbnail, so the model has no metadata lookup.
- The race between the upvote existence check and the insert is not modelled. Transaction isolation is not modelled either. Transitions are sequential.
- `playedAt` is an opaque natural number, not a date.
- Not modelled: HTTP transport (axios), React state and effects, the `loading` flag, the 10-second polling, clipboard/toast sharing and the YouTube player. `handleVote` is a post to the vote routes followed by a refresh. It is not a member of its own.
- The pages import `YT_REGEX` from app/lib/utils, which is not part of this model. It is assumed to be the pattern of the server route.
- StreamView.DisplayTitle: counts characters, while JavaScript `length` and `substring` count UTF-16 code units. A missing title, which would throw while rendering, is not modelled.
- `upvotes || 0` is modelled as "the number, or 0 when missing". For a number the two agree, since 0 is falsy. Non-number JSON is not modelled.
- The page has one error line shared by the form and the queue. The model keeps one in `Form` and one in `View`.
- SkipRoute.RunSkips and SkipRoute.SkipsDrainQueue: these cover runs without store failures.
- app/page.tsx, app/layout.tsx, the app bar and app/api/user/route.ts (commented out) are not part of this model.

=== FILE: client_form.dfy ===
/**
 * What the creator page and the dashboard share: the link form (its
 * preview id and its submit guard), the shape of a fetched stream row, and
 * the normalisation of `userVote`. Both pages use the same `YT_REGEX` as the
 * server.
 */
module ClientForm {
  import opened Options
  import opened JsString
  import opened YtLink
  import opened Store
  import opened StreamsRoute

  /** The three values the pages allow for `userVote`. */
  datatype VoteMark = NoVote | Up | Down

  /** The string each mark stands for in a row. */
  function MarkText(m: VoteMark): string {
    match m
    case NoVote => "none"
    case Up => "upvote"
    case Down => "downvote"
  }

  /**
   * `userVote === "upvote" ? "upvote" : userVote === "downvote" ? "downvote" : "none"`:
   * a missing field and any other text both become `NoVote`.
   */
  function NormaliseVote(raw: Option<string>): (m: VoteMark)
    ensures m == Up <==> raw == Some("upvote")
    ensures m == Down <==> raw == Some("downvote")
    ensures m == NoVote <==> raw != Some("upvote") && raw != Some("downvote")
  {
    if raw == Some("upvote") then Up
    else if raw == Some("downvote") then Down
    else NoVote
  }

  /** Normalising the text of a mark gives the mark back. */
  lemma NormaliseMarkText(m: VoteMark)
    ensures NormaliseVote(Some(MarkText(m))) == m
  {
  }

  /**
   * One element of a fetched `streams` array, as JSON: any field may be
   * missing. Only the vote-count route sends `upvotes`, and no route sends
   * `userVote`.
   */
  datatype Row = Row(
    id: string,
    title: Option<string>,
    upvotes: Option<int>,
    userVote: Option<string>,
    extractedId: Option<string>)

  /** A stream record as GET /api/streams serialises it. */
  function StreamRow(s: Stream): Row {
    Row(s.id, s.title, None, None, s.extractedId)
  }

  /** A vote-count entry as GET /api/streams/get serialises it. */
  function EntryRow(e: Entry): Row {
    Row(e.id, e.title, Some(e.upvotes), None, None)
  }

  /** The link input, its preview id and the page's error line. */
  datatype Form = Form(videoLink: string, previewId: string, error: Option<string>)

  const InvalidLink := "Invalid YouTube link. Please provide a valid URL."
  const AddFailed := "Failed to add stream. Please try again later."

  /** `handleInputChange`: keep the link, recompute the preview id, clear the error. */
  function InputChange(f: Form, link: string): (f': Form)
    ensures f'.videoLink == link && f'.error.None?
    ensures f'.previewId == PreviewId(link)
    ensures !Includes(link, "v=") ==> f'.previewId == ""
    ensures NoOccurrence(f'.previewId, "&")
  {
    Form(link, PreviewId(link), None)
  }

  /** What `handleSubmit` does before any request: refuse, or post the body. */
  datatype Submission = Refused(form: Form) | Post(form: Form, body: CreateBody)

  /**
   * `handleSubmit`'s guard `!previewId || !videoLink.match(YT_REGEX)`. A
   * refused form shows the error; otherwise `{ creatorId, url }` is posted.
   */
  function SubmitGuard(f: Form, creatorId: string): (s: Submission)
    ensures s.Post? <==> f.previewId != "" && Matches(f.videoLink)
    ensures s.Refused? ==> s.form == f.(error := Some(InvalidLink))
    ensures s.Post? ==> s.form == f && s.body.creatorId == creatorId && s.body.url == f.videoLink
  {
    if f.previewId == "" || !Matches(f.videoLink) then Refused(f.(error := Some(InvalidLink)))
    else Post(f, CreateBody(creatorId, f.videoLink))
  }

  /**
   * The form after the post: axios rejects any non-2xx status, which shows
   * the error; a 2xx clears the link and the preview.
   */
  function AfterPost(f: Form, status: nat): (f': Form)
    ensures 200 <= status < 300 ==> f'.videoLink == "" && f'.previewId == "" && f'.error == f.error
    ensures !(200 <= status < 300) ==> f' == f.(error := Some(AddFailed))
  {
    if 200 <= status < 300 then f.(videoLink := "", previewId := "")
    else f.(error := Some(AddFailed))
  }

  /**
   * What the form does after a post it sent: an accepted link leaves a
   * cleared form that the guard refuses, so it is not posted twice; a
   * rejected one keeps link and preview, so submitting again re-posts the
   * same body.
   */
  lemma AfterPostGuard(f: Form, creatorId: string, status: nat)
    requires SubmitGuard(f, creatorId).Post?
    ensures 200 <= status < 300 ==> SubmitGuard(AfterPost(f, status), creatorId).Refused?
    ensures !(200 <= status < 300) ==>
              && SubmitGuard(AfterPost(f, status), creatorId).Post?
              && SubmitGuard(AfterPost(f, status), creatorId).body == SubmitGuard(f, creatorId).body
  {
  }

  /**
   * The client check is at least as strict as the server's: a posted link
   * is never refused for its format, and the server then accepts it exactly
   * when the id is fresh, the creator exists and the store does not fail.
   */
  lemma PostedLinkPassesServer(f: Form, creatorId: string, st: Store, newId: StreamId, fault: bool)
    requires SubmitGuard(f, creatorId).Post?
    ensures var out := Submit(st, Some(SubmitGuard(f, creatorId).body), newId, fault).outcome;
            && out != Reply(411, Message(WrongFormat))
            && (out.status == 200 <==> newId !in Ids(st.streams) && creatorId in st.users.Values && !fault)
  {
  }

  /**
   * A canonical watch link gets its video id as preview and is posted
   * verbatim.
   */
  lemma WatchLinkIsPosted(f: Form, id: string, creatorId: string)
    requires IsVideoId(id)
    ensures InputChange(f, WatchPrefix + id).previewId == id
    ensures SubmitGuard(InputChange(f, WatchPrefix + id), creatorId) ==
            Post(InputChange(f, WatchPrefix + id), CreateBody(creatorId, WatchPrefix + id))
  {
    assert WatchPrefix + id + "" == WatchPrefix + id;
    WatchLinkMatches(id, "");
    PreviewIdOfWatchLink(id, "");
  }

  /**
   * A `youtu.be` link whose tail has no `=` never leaves the page: it has no
   * `v=`, so its preview id is empty, although the server would accept its
   * format.
   */
  lemma ShortLinkIsRefused(f: Form, id: string, tail: string, creatorId: string)
    requires IsVideoId(id) && NoWhitespace(tail)
    requires forall k :: 0 <= k < |tail| ==> tail[k] != '='
    ensures SubmitGuard(InputChange(f, ShortPrefix + id + tail), creatorId).Refused?
    ensures Matches(ShortPrefix + id + tail)
  {
    ShortLinkHasNoId(id, tail);
  }

  /**
   * A `youtu.be` link with a non-empty `?v=` query is posted, and both the
   * preview and the stored id are the query's value rather than the path's
   * video id.
   */
  lemma ShortLinkWithQueryIsPosted(f: Form, id: string, x: string, creatorId: string, st: Store, newId: StreamId)
    requires IsVideoId(id) && NoWhitespace(x) && x != ""
    requires forall k :: 0 <= k < |x| ==> x[k] != '=' && x[k] != '&'
    ensures var link := ShortPrefix + id + "?v=" + x;
            && InputChange(f, link).previewId == x
            && SubmitGuard(InputChange(f, link), creatorId) == Post(InputChange(f, link), CreateBody(creatorId, link))
            && (Submit(st, Some(CreateBody(creatorId, link)), newId, false).outcome.status == 200 ==>
                  Submit(st, Some(CreateBody(creatorId, link)), newId, false).store.streams[|st.streams|].extractedId == Some(x))
  {
    ShortLinkWithQueryId(id, x);
  }
}

=== FILE: dashboard.dfy ===
/**
 * The dashboard page: a queue of every stream with its vote count, polled
 * from the vote-count route, a "play next" button that works on that list
 * alone, and a link form that always submits for one fixed creator.
 */
module Dashboard {
  import opened Options
  import opened Seqs
  import opened Store
  import opened GetRoute
  import opened StreamsRoute
  import opened YtLink
  import opened ClientForm
  import opened StreamView

  /** The creator id the dashboard posts every link for. */
  const FixedCreator := "3d008513-2163-4a1c-9a12-f5b9fc9b2d3b"

  /** One queue entry of the dashboard; `votes` is copied with no default. */
  datatype DashVideo = DashVideo(id: string, title: Option<string>, votes: Option<int>, userVote: VoteMark)

  /** The queue, the id of the embedded video ("" for none) and the page's error line. */
  datatype DashView = DashView(queue: seq<DashVideo>, current: string, error: Option<string>)

  function ToDashVideo(r: Row): DashVideo {
    DashVideo(r.id, r.title, r.upvotes, NormaliseVote(r.userVote))
  }

  /** `refreshStreams`: the queue becomes the fetched list, one entry per row, nothing excluded. */
  function DashRefresh(rows: seq<Row>): (q: seq<DashVideo>)
    ensures |q| == |rows|
    ensures forall i :: 0 <= i < |rows| ==>
              && q[i].id == rows[i].id && q[i].title == rows[i].title
              && q[i].votes == rows[i].upvotes
              && (q[i].userVote == Up <==> rows[i].userVote == Some("upvote"))
              && (q[i].userVote == Down <==> rows[i].userVote == Some("downvote"))
  {
    MapSeq(rows, ToDashVideo)
  }

  /**
   * `refreshStreams` as a whole: a successful fetch replaces the queue with
   * the fetched rows and leaves the player alone; a failed one keeps the
   * queue and only shows "Failed to load streams".
   */
  function DashLoad(v: DashView, f: Fetch): (v': DashView)
    ensures f.FetchFailed? ==> v' == v.(error := Some(LoadFailed))
    ensures f.Fetched? ==> v'.queue == DashRefresh(f.rows) && v'.current == v.current && v'.error == v.error
  {
    match f
    case FetchFailed => v.(error := Some(LoadFailed))
    case Fetched(rows, _) => v.(queue := DashRefresh(rows))
  }

  /**
   * `playNextSong`: the head's id is embedded and dropped from the queue; on
   * an empty queue the player is cleared. No route is called.
   */
  function DashPlayNext(v: DashView): (v': DashView)
    ensures v.queue != [] ==> v'.current == v.queue[0].id && [v.queue[0]] + v'.queue == v.queue
    ensures v.queue == [] ==> v' == DashView([], "", v.error)
    ensures v'.error == v.error
  {
    if v.queue == [] then v.(current := "") else v.(queue := v.queue[1..], current := v.queue[0].id)
  }

  /** `k` presses of "play next". */
  function DashPressNext(v: DashView, k: nat): DashView
    decreases k
  {
    if k == 0 then v else DashPressNext(DashPlayNext(v), k - 1)
  }

  /**
   * Pressing "play next" walks the queue in order, and once the queue is
   * used up every further press leaves the player empty.
   */
  lemma {:induction false} DashPressNextWalksQueue(v: DashView, k: nat)
    requires 0 < k
    ensures k <= |v.queue| ==> DashPressNext(v, k) == DashView(v.queue[k..], v.queue[k - 1].id, v.error)
    ensures k > |v.queue| ==> DashPressNext(v, k) == DashView([], "", v.error)
    decreases k
  {
    var v1 := DashPlayNext(v);
    if v.queue != [] {
      assert v1.queue == v.queue[1..] by {
        assert v1.queue == ([v.queue[0]] + v1.queue)[1..];
      }
    }
    if k > 1 {
      DashPressNextWalksQueue(v1, k - 1);
      if k <= |v.queue| {
        assert v.queue[1..][k - 1..] == v.queue[k..];
        assert v.queue[1..][k - 2] == v.queue[k - 1];
      }
    }
  }

  /** The thumbs-up button is disabled exactly when the entry is marked upvoted. */
  predicate UpDisabled(v: DashVideo) {
    v.userVote == Up
  }

  /** The thumbs-down button is disabled exactly when the entry is marked downvoted. */
  predicate DownDisabled(v: DashVideo) {
    v.userVote == Down
  }

  /**
   * The dashboard fed from GET /api/streams/get: one entry per stream of
   * every creator, in store order, showing its live vote count; that route
   * sends no `userVote`, so no vote button is ever disabled.
   */
  lemma DashboardOfCounts(st: Store)
    ensures var q := DashRefresh(MapSeq(ListWithCounts(st, false).body.entries, EntryRow));
            && |q| == |st.streams|
            && forall i :: 0 <= i < |st.streams| ==>
                 && q[i].id == st.streams[i].id
                 && q[i].votes == Some(VoteCount(st.votes, st.streams[i].id))
                 && !UpDisabled(q[i]) && !DownDisabled(q[i])
  {
    var es := ListWithCounts(st, false).body.entries;
    forall i | 0 <= i < |st.streams|
      ensures es[i].upvotes == VoteCount(st.votes, st.streams[i].id)
    {
      assert VotesFor(st.votes, st.streams[i].id) == set v | v in st.votes && v.stream == st.streams[i].id;
    }
  }

  /** `handleSubmit`: the guard, with the fixed creator in the body. */
  function DashSubmit(f: Form): (s: Submission)
    ensures s.Post? <==> f.previewId != "" && Matches(f.videoLink)
    ensures s.Post? ==> s.body == CreateBody(FixedCreator, f.videoLink)
  {
    SubmitGuard(f, FixedCreator)
  }

  /**
   * Whoever is signed in, a link the dashboard gets accepted lands in the
   * fixed creator's queue, and only when that creator exists.
   */
  lemma DashSubmitLandsWithFixedCreator(f: Form, st: Store, newId: StreamId, fault: bool)
    requires DashSubmit(f).Post?
    ensures var r := Submit(st, Some(DashSubmit(f).body), newId, fault);
            r.outcome.status == 200 ==>
              FixedCreator in st.users.Values && r.store.streams[|st.streams|].owner == FixedCreator
  {
  }
}

=== FILE: get_route.dfy ===
/**
 * `/api/streams/get`: every stream of every creator, each projected to its
 * id, title and live vote count.
 */
module GetRoute {
  import opened Options
  import opened Store
  import opened Seqs

  const ListErrorMessage := "Error fetching streams"

  /** `{ id, title, upvotes: stream.upvotes.length }` */
  function Project(votes: set<Vote>, s: Stream): Entry {
    Entry(s.id, s.title, VoteCount(votes, s.id))
  }

  /**
   * GET /api/streams/get. No filter on owner or `played`; one entry per row,
   * in store order; a store failure (`fault`) is answered with 500.
   */
  function ListWithCounts(st: Store, fault: bool): (o: Outcome)
    ensures fault ==> o == Reply(500, Failure(ListErrorMessage))
    ensures !fault ==>
              && o.Reply? && o.status == 200 && o.body.Counts?
              && |o.body.entries| == |st.streams|
              && forall i :: 0 <= i < |st.streams| ==>
                   && o.body.entries[i].id == st.streams[i].id
                   && o.body.entries[i].title == st.streams[i].title
                   && o.body.entries[i].upvotes == VoteCount(st.votes, st.streams[i].id)
  {
    if fault then Reply(500, Failure(ListErrorMessage))
    else Ok(Counts(MapSeq(st.streams, (s: Stream) => Project(st.votes, s))))
  }
}

=== FILE: js_string.dfy ===
/**
 * The slice of JavaScript's string API the handlers and the client rely on:
 * `includes` and `split` with a literal, non-empty separator, of which the
 * code only ever reads the first two pieces (`split(sep)[0]`, `split(sep)[1]`).
 */
module JsString {
  import opened Options

  /** `sep` occurs in `s` starting at index `i`. */
  predicate OccursAt(s: string, sep: string, i: nat) {
    i + |sep| <= |s| && s[i..i + |sep|] == sep
  }

  /** `sep` occurs nowhere in `s`. */
  ghost predicate NoOccurrence(s: string, sep: string) {
    forall i: nat :: !OccursAt(s, sep, i)
  }

  /** `i` is where the leftmost occurrence of `sep` in `s` starts. */
  ghost predicate FirstAt(s: string, sep: string, i: nat) {
    OccursAt(s, sep, i) && forall j: nat :: j < i ==> !OccursAt(s, sep, j)
  }

  /** The leftmost occurrence of `sep` in `s` at or after `from`. */
  function IndexOfFrom(s: string, sep: string, from: nat): (r: Option<nat>)
    requires |sep| > 0
    ensures r.Some? ==> from <= r.value && OccursAt(s, sep, r.value)
    ensures forall j: nat :: from <= j && (r.None? || j < r.value) ==> !OccursAt(s, sep, j)
    decreases |s| - from
  {
    if from + |sep| > |s| then None
    else if s[from..from + |sep|] == sep then Some(from)
    else IndexOfFrom(s, sep, from + 1)
  }

  /** `s.indexOf(sep)`, with -1 as `None`. */
  function IndexOf(s: string, sep: string): (r: Option<nat>)
    requires |sep| > 0
    ensures r.Some? <==> !NoOccurrence(s, sep)
    ensures r.Some? ==> FirstAt(s, sep, r.value)
  {
    IndexOfFrom(s, sep, 0)
  }

  /** `s.includes(sep)`. */
  function Includes(s: string, sep: string): (b: bool)
    requires |sep| > 0
    ensures b <==> !NoOccurrence(s, sep)
  {
    IndexOf(s, sep).Some?
  }

  /**
   * `s.split(sep)[0]`: the longest prefix of `s` in which no occurrence of
   * `sep` starts; it is all of `s` or it is followed by `sep`.
   */
  function SplitHead(s: string, sep: string): (r: string)
    requires |sep| > 0
    ensures |r| <= |s| && r == s[..|r|]
    ensures r == s || OccursAt(s, sep, |r|)
    ensures forall j: nat :: j < |r| ==> !OccursAt(s, sep, j)
    ensures NoOccurrence(r, sep)
  {
    var r := match IndexOf(s, sep) case None => s case Some(i) => s[..i];
    assert forall j: nat :: OccursAt(r, sep, j) ==> OccursAt(s, sep, j) by {
      forall j: nat | OccursAt(r, sep, j)
        ensures OccursAt(s, sep, j)
      {
        assert r[j..j + |sep|] == s[j..j + |sep|];
      }
    }
    r
  }

  /** `piece` is what follows the leftmost occurrence of `sep` in `s`, starting at `i`, up to the next one. */
  ghost predicate SecondPieceAt(s: string, sep: string, i: nat, piece: string)
    requires |sep| > 0
  {
    i + |sep| <= |s| && FirstAt(s, sep, i) && piece == SplitHead(s[i + |sep|..], sep)
  }

  /**
   * `s.split(sep)[1]`: `undefined` when `sep` does not occur, otherwise the
   * text after the first occurrence up to the next one (or to the end).
   */
  function SplitSecond(s: string, sep: string): (r: Option<string>)
    requires |sep| > 0
    ensures r.None? <==> NoOccurrence(s, sep)
    ensures r.Some? ==> exists i: nat :: SecondPieceAt(s, sep, i, r.value)
  {
    var found := IndexOf(s, sep);
    if found.None? then None
    else
      var i := found.value;
      var piece := SplitHead(s[i + |sep|..], sep);
      assert SecondPieceAt(s, sep, i, piece);
      Some(piece)
  }

  /** Occurrences in the right operand of a concatenation, shifted by the left one. */
  lemma OccursAtConcatRight(a: string, b: string, sep: string, k: nat)
    ensures OccursAt(a + b, sep, |a| + k) <==> OccursAt(b, sep, k)
  {
    if k + |sep| <= |b| {
      assert (a + b)[|a| + k..|a| + k + |sep|] == b[k..k + |sep|];
    }
  }

  /** An occurrence of `sep` at `k` puts the character `sep[m]` at `k + m`. */
  lemma OccursAtChar(s: string, sep: string, k: nat, m: nat)
    requires OccursAt(s, sep, k) && m < |sep|
    ensures s[k + m] == sep[m]
  {
    assert s[k..k + |sep|][m] == s[k + m];
  }
}

=== FILE: option.dfy ===
/**
 * The optional value used throughout the model: JavaScript `undefined`,
 * a missing record, a missing session.
 */
module Options {

  datatype Option<+T> = None | Some(value: T) {

    /** The wrapped value, or `default` when there is none. */
    function GetOr(default: T): T {
      match this
      case Some(v) => v
      case None => default
    }
  }
}

=== FILE: seqs.dfy ===
/**
 * Order-preserving sequence helpers: JavaScript's `Array.prototype.filter`
 * and `map`, and the subsequence relation that says `filter` keeps order.
 */
module Seqs {

  /** `a` can be obtained from `b` by deleting elements, order kept. */
  predicate IsSubseq<T(==,!new)>(a: seq<T>, b: seq<T>)
    decreases |b|
  {
    if a == [] then true
    else if b == [] then false
    else if a[0] == b[0] then IsSubseq(a[1..], b[1..])
    else IsSubseq(a, b[1..])
  }

  /** `xs.filter(p)`. */
  function Filter<T(==,!new)>(xs: seq<T>, p: T -> bool): (r: seq<T>)
    ensures |r| <= |xs|
    ensures forall x :: x in r <==> x in xs && p(x)
    ensures IsSubseq(r, xs)
    decreases |xs|
  {
    if xs == [] then []
    else
      var rest := Filter(xs[1..], p);
      if p(xs[0]) then
        assert ([xs[0]] + rest)[1..] == rest;
        [xs[0]] + rest
      else
        rest
  }

  /** `xs.map(f)`. */
  function MapSeq<A, B>(xs: seq<A>, f: A -> B): (r: seq<B>)
    ensures |r| == |xs|
    ensures forall i :: 0 <= i < |xs| ==> r[i] == f(xs[i])
  {
    seq(|xs|, i requires 0 <= i < |xs| => f(xs[i]))
  }

  /** Mapping keeps every element's image. */
  lemma MapSeqHas<A, B>(xs: seq<A>, f: A -> B)
    ensures forall x :: x in xs ==> f(x) in MapSeq(xs, f)
  {
    forall x | x in xs
      ensures f(x) in MapSeq(xs, f)
    {
      var i :| 0 <= i < |xs| && xs[i] == x;
      assert MapSeq(xs, f)[i] == f(x);
    }
  }

  /** Every element of a mapped sequence is the image of an element. */
  lemma MapSeqFrom<A, B>(xs: seq<A>, f: A -> B, y: B)
    requires y in MapSeq(xs, f)
    ensures exists x :: x in xs && y == f(x)
  {
    var i :| 0 <= i < |xs| && MapSeq(xs, f)[i] == y;
    assert xs[i] in xs;
  }

  /** Filtering distributes over concatenation. */
  lemma {:induction false} FilterConcat<T(!new)>(a: seq<T>, b: seq<T>, p: T -> bool)
    ensures Filter(a + b, p) == Filter(a, p) + Filter(b, p)
    decreases |a|
  {
    if a == [] {
      assert a + b == b;
    } else {
      assert (a + b)[1..] == a[1..] + b;
      FilterConcat(a[1..], b, p);
    }
  }

  /** When every element passes, filtering changes nothing. */
  lemma {:induction false} FilterKeepsAll<T(!new)>(xs: seq<T>, p: T -> bool)
    requires forall i :: 0 <= i < |xs| ==> p(xs[i])
    ensures Filter(xs, p) == xs
    decreases |xs|
  {
    if xs != [] {
      FilterKeepsAll(xs[1..], p);
    }
  }

  /**
   * Replacing one element that passes by one that does not shortens the
   * filtered sequence by exactly one.
   */
  lemma {:induction false} FilterDropsOne<T(!new)>(xs: seq<T>, k: nat, y: T, p: T -> bool)
    requires k < |xs| && p(xs[k]) && !p(y)
    ensures |Filter(xs[k := y], p)| == |Filter(xs, p)| - 1
    decreases |xs|
  {
    var ys := xs[k := y];
    if k == 0 {
      assert ys[1..] == xs[1..];
    } else {
      assert ys[1..] == xs[1..][k - 1 := y];
      assert ys[0] == xs[0];
      FilterDropsOne(xs[1..], k - 1, y, p);
    }
  }

  /** The tail keeps every element that passes, shifted down by one. */
  lemma TailPasses<T>(xs: seq<T>, k: int, p: T -> bool)
    requires xs != []
    requires forall i :: 0 <= i < |xs| && i != k ==> p(xs[i])
    ensures forall i :: 0 <= i < |xs| - 1 && i != k - 1 ==> p(xs[1..][i])
  {
    forall i | 0 <= i < |xs| - 1 && i != k - 1
      ensures p(xs[1..][i])
    {
      assert xs[1..][i] == xs[i + 1];
    }
  }

  /** Removing the only element that fails `p` is what filtering by `p` does. */
  lemma {:induction false} FilterRemovesOnly<T(!new)>(xs: seq<T>, k: nat, p: T -> bool)
    requires k < |xs| && !p(xs[k])
    requires forall i :: 0 <= i < |xs| && i != k ==> p(xs[i])
    ensures Filter(xs, p) == xs[..k] + xs[k + 1..]
    decreases |xs|
  {
    var tl := xs[1..];
    TailPasses(xs, k, p);
    if k == 0 {
      FilterKeepsAll(tl, p);
    } else {
      assert p(xs[0]);
      assert Filter(xs, p) == [xs[0]] + Filter(tl, p);
      FilterRemovesOnly(tl, k - 1, p);
      SliceAroundTail(xs, k);
    }
  }

  lemma SliceAroundTail<T>(xs: seq<T>, k: nat)
    requires 0 < k < |xs|
    ensures xs[..k] + xs[k + 1..] == [xs[0]] + (xs[1..][..k - 1] + xs[1..][k..])
  {
    assert xs[..k] == [xs[0]] + xs[1..][..k - 1];
    assert xs[k + 1..] == xs[1..][k..];
  }
}

=== FILE: skip_route.dfy ===
/**
 * `/api/streams/skip`: the creator advances their own queue. The unplayed
 * stream with the most upvotes becomes the creator's current stream and is
 * marked played, both in one transaction.
 */
module SkipRoute {
  import opened Options
  import opened Store
  import opened Seqs

  const NoEmail := "Unauthorized: Email not found in session."
  const NoUser := "User not found in the database."
  const NothingToSkip := "No streams available to skip. Please add more streams."
  const SkipFailed := "Something went wrong. Please try again later."

  /** The filter `where: { userId: u, played: false }`. */
  function Pending(u: UserId): Stream -> bool {
    (s: Stream) => s.owner == u && !s.played
  }

  /** The creator's unplayed streams, in store order. */
  function Candidates(st: Store, u: UserId): seq<Stream> {
    Filter(st.streams, Pending(u))
  }

  /** The largest vote count among `xs`, 0 when there is none. */
  function MaxCount(votes: set<Vote>, xs: seq<Stream>): (m: nat)
    ensures forall s :: s in xs ==> VoteCount(votes, s.id) <= m
    ensures xs != [] ==> exists s :: s in xs && VoteCount(votes, s.id) == m
    decreases |xs|
  {
    if xs == [] then 0
    else
      var rest := MaxCount(votes, xs[1..]);
      var c := VoteCount(votes, xs[0].id);
      if c >= rest then c else rest
  }

  /**
   * `s` may come first under `orderBy: { upvotes: { _count: "desc" } }`:
   * it is an unplayed stream of `u` and no unplayed stream of `u` has more
   * upvotes.
   */
  ghost predicate IsTop(st: Store, u: UserId, s: Stream) {
    && s in st.streams && s.owner == u && !s.played
    && forall t :: t in st.streams && t.owner == u && !t.played ==>
         VoteCount(st.votes, t.id) <= VoteCount(st.votes, s.id)
  }

  function HasCount(votes: set<Vote>, m: nat): Stream -> bool {
    (s: Stream) => VoteCount(votes, s.id) == m
  }

  /** All streams the store may return first; the order among them is the store's. */
  function TopCandidates(st: Store, u: UserId): (top: seq<Stream>)
    ensures forall s :: s in top <==> IsTop(st, u, s)
    ensures top == [] <==> forall s :: s in st.streams && s.owner == u ==> s.played
  {
    var pending := Candidates(st, u);
    var m := MaxCount(st.votes, pending);
    var top := Filter(pending, HasCount(st.votes, m));
    assert forall s :: s in top ==> IsTop(st, u, s);
    assert forall s :: IsTop(st, u, s) ==> s in top by {
      forall s | IsTop(st, u, s)
        ensures s in top
      {
        assert s in pending;
        var t :| t in pending && VoteCount(st.votes, t.id) == m;
      }
    }
    assert pending != [] ==> top != [] by {
      if pending != [] {
        var t :| t in pending && VoteCount(st.votes, t.id) == m;
        assert t in top;
      }
    }
    assert pending == [] <==> forall s :: s in st.streams && s.owner == u ==> s.played by {
      if pending != [] {
        assert pending[0] in pending;
      }
    }
    top
  }

  /** `stream.update({ where: { id }, data: { played: true, playedAt: now } })` */
  function MarkPlayed(streams: seq<Stream>, id: StreamId, now: Timestamp): (r: seq<Stream>)
    ensures |r| == |streams|
    ensures forall i :: 0 <= i < |streams| ==>
              r[i] == if streams[i].id == id then streams[i].(played := true, playedAt := Some(now)) else streams[i]
  {
    MapSeq(streams, (s: Stream) => if s.id == id then s.(played := true, playedAt := Some(now)) else s)
  }

  /** Both writes of the transaction: the pointer upsert and the played mark. */
  function Advance(st: Store, u: UserId, id: StreamId, now: Timestamp): Store {
    st.(current := st.current[u := id], streams := MarkPlayed(st.streams, id, now))
  }

  /**
   * GET /api/streams/skip. `now` is the handler's `new Date()`, `fault` a
   * failure of the transaction, and `choice` the store's unspecified pick
   * among the streams tied for the most upvotes. The response carries the
   * stream as it was read, before it was marked played.
   */
  function Skip(st: Store, session: Option<Email>, now: Timestamp, fault: bool, choice: nat): (r: Transition)
    ensures r.outcome.Reply?
    ensures r.store.votes == st.votes && r.store.users == st.users
    ensures !HasEmail(session) ==> r.outcome == Reply(401, Message(NoEmail))
    ensures HasEmail(session) && session.value !in st.users ==> r.outcome == Reply(404, Message(NoUser))
    ensures HasEmail(session) && session.value in st.users
            && (forall s :: s in st.streams && s.owner == st.users[session.value] ==> s.played)
            ==> r.outcome == Reply(404, Message(NothingToSkip))
    ensures HasEmail(session) && session.value in st.users && fault
            && (exists s :: s in st.streams && s.owner == st.users[session.value] && !s.played)
            ==> r.outcome == Reply(500, Message(SkipFailed))
    ensures r.outcome.status == 200 <==>
              && HasEmail(session) && session.value in st.users && !fault
              && exists s :: s in st.streams && s.owner == st.users[session.value] && !s.played
    ensures r.outcome.status != 200 ==> r.store == st
    ensures r.outcome.status == 200 ==>
              && r.outcome.body.Selected?
              && IsTop(st, st.users[session.value], r.outcome.body.stream)
  {
    if !HasEmail(session) then
      Transition(Reply(401, Message(NoEmail)), st)
    else if session.value !in st.users then
      Transition(Reply(404, Message(NoUser)), st)
    else
      var u := st.users[session.value];
      var top := TopCandidates(st, u);
      if top == [] then
        Transition(Reply(404, Message(NothingToSkip)), st)
      else
        var sel := top[choice % |top|];
        assert sel in top;
        if fault then
          Transition(Reply(500, Message(SkipFailed)), st)
        else
          Transition(Ok(Selected(sel)), Advance(st, u, sel.id, now))
  }

  /** Ties are not broken by the model: every top stream is the pick for some choice. */
  lemma SkipCanPickAnyTop(st: Store, session: Option<Email>, now: Timestamp, s: Stream)
    requires HasEmail(session) && session.value in st.users
    requires IsTop(st, st.users[session.value], s)
    ensures exists choice: nat :: Skip(st, session, now, false, choice).outcome == Reply(200, Selected(s))
  {
    var top := TopCandidates(st, st.users[session.value]);
    assert s in top;
    var k :| 0 <= k < |top| && top[k] == s;
    ModOfSmaller(k, |top|);
    assert Skip(st, session, now, false, k).outcome == Reply(200, Selected(s));
  }

  lemma ModOfSmaller(k: nat, n: nat)
    requires k < n
    ensures k % n == k
  {
  }

  /** The stream at `i` is the only row with its id. */
  lemma UniqueIndex(streams: seq<Stream>, i: int, s: Stream)
    requires DistinctIds(streams) && 0 <= i < |streams| && s in streams && streams[i].id == s.id
    ensures streams[i] == s
  {
    var j :| 0 <= j < |streams| && streams[j] == s;
  }

  /** The played mark keeps every row's identity and never touches a played row. */
  lemma MarkPlayedPersists(streams: seq<Stream>, sel: Stream, now: Timestamp)
    requires DistinctIds(streams) && sel in streams && !sel.played
    ensures forall i :: 0 <= i < |streams| ==> Persists(streams[i], MarkPlayed(streams, sel.id, now)[i])
  {
    var ms := MarkPlayed(streams, sel.id, now);
    forall i | 0 <= i < |streams|
      ensures Persists(streams[i], ms[i])
    {
      if streams[i].id == sel.id {
        UniqueIndex(streams, i, sel);
      }
    }
  }

  /** The played mark keeps the set of stream ids. */
  lemma MarkPlayedIds(streams: seq<Stream>, id: StreamId, now: Timestamp)
    ensures Ids(MarkPlayed(streams, id, now)) == Ids(streams)
  {
    var ms := MarkPlayed(streams, id, now);
    forall x | x in Ids(streams)
      ensures x in Ids(ms)
    {
      var i :| 0 <= i < |streams| && streams[i].id == x;
      assert ms[i] in ms;
    }
  }

  /** Who owns which stream id is the same before and after the played mark. */
  lemma MarkPlayedOwners(streams: seq<Stream>, id: StreamId, now: Timestamp, w: UserId, sid: StreamId)
    requires OwnsStream(streams, w, sid)
    ensures OwnsStream(MarkPlayed(streams, id, now), w, sid)
  {
    var i :| 0 <= i < |streams| && streams[i].id == sid && streams[i].owner == w;
    assert MarkPlayed(streams, id, now)[i].id == sid;
  }

  /**
   * The transaction's two writes keep the store valid when they select an
   * unplayed stream of the caller, and they never un-play a stream: rows keep
   * their identity and a played row is never touched again.
   */
  lemma AdvancePreservesValid(st: Store, u: UserId, sel: Stream, now: Timestamp)
    requires Valid(st) && u in st.users.Values
    requires sel in st.streams && sel.owner == u && !sel.played
    ensures Valid(Advance(st, u, sel.id, now)) && Evolves(st, Advance(st, u, sel.id, now))
  {
    var st' := Advance(st, u, sel.id, now);
    MarkPlayedPersists(st.streams, sel, now);
    MarkPlayedIds(st.streams, sel.id, now);
    assert DistinctIds(st'.streams) by {
      forall i, j | 0 <= i < |st'.streams| && 0 <= j < |st'.streams| && i != j
        ensures st'.streams[i].id != st'.streams[j].id
      {
        assert Persists(st.streams[i], st'.streams[i]) && Persists(st.streams[j], st'.streams[j]);
      }
    }
    forall w | w in st'.current
      ensures OwnsStream(st'.streams, w, st'.current[w])
    {
      if w == u {
        var i :| 0 <= i < |st.streams| && st.streams[i] == sel;
        assert OwnsStream(st.streams, u, sel.id);
      } else {
        assert w in st.current && st'.current[w] == st.current[w];
      }
      MarkPlayedOwners(st.streams, sel.id, now, w, st'.current[w]);
    }
  }

  /** A successful skip's store is the transaction's two writes for the stream it returns. */
  lemma SkipAdvances(st: Store, session: Option<Email>, now: Timestamp, fault: bool, choice: nat)
    requires Skip(st, session, now, fault, choice).outcome.status == 200
    ensures var r := Skip(st, session, now, fault, choice);
            && r.outcome.body.Selected?
            && IsTop(st, st.users[session.value], r.outcome.body.stream)
            && r.store == Advance(st, st.users[session.value], r.outcome.body.stream.id, now)
  {
  }

  /**
   * A successful skip points the caller at the stream it returns and marks
   * every row with that id played at `now`; no other row changes.
   */
  lemma SkipMarksSelected(st: Store, session: Option<Email>, now: Timestamp, fault: bool, choice: nat)
    requires Skip(st, session, now, fault, choice).outcome.status == 200
    ensures var r := Skip(st, session, now, fault, choice);
            var u, sel := st.users[session.value], r.outcome.body.stream;
            && r.store.current == st.current[u := sel.id]
            && |r.store.streams| == |st.streams|
            && forall i :: 0 <= i < |st.streams| ==>
                 r.store.streams[i] ==
                   if st.streams[i].id == sel.id then st.streams[i].(played := true, playedAt := Some(now))
                   else st.streams[i]
  {
    SkipAdvances(st, session, now, fault, choice);
  }

  /** Marking the row at `k` played, when ids are unique, is an update of that row alone. */
  lemma MarkPlayedAt(streams: seq<Stream>, k: nat, now: Timestamp)
    requires DistinctIds(streams) && k < |streams|
    ensures MarkPlayed(streams, streams[k].id, now) == streams[k := streams[k].(played := true, playedAt := Some(now))]
  {
    var y := streams[k].(played := true, playedAt := Some(now));
    forall i | 0 <= i < |streams|
      ensures MarkPlayed(streams, streams[k].id, now)[i] == streams[k := y][i]
    {
      if i != k {
        assert streams[i].id != streams[k].id;
      }
    }
  }

  /** Every skip keeps the store valid and is a possible evolution of it. */
  lemma SkipPreservesValid(st: Store, session: Option<Email>, now: Timestamp, fault: bool, choice: nat)
    requires Valid(st)
    ensures Valid(Skip(st, session, now, fault, choice).store)
    ensures Evolves(st, Skip(st, session, now, fault, choice).store)
  {
    var r := Skip(st, session, now, fault, choice);
    if r.outcome.status == 200 {
      SkipAdvances(st, session, now, fault, choice);
      var u, sel := st.users[session.value], r.outcome.body.stream;
      assert u in st.users.Values;
      AdvancePreservesValid(st, u, sel, now);
    }
  }

  /** A successful skip takes exactly one stream off the caller's unplayed list. */
  lemma SkipPlaysOne(st: Store, session: Option<Email>, now: Timestamp, choice: nat)
    requires Valid(st)
    requires Skip(st, session, now, false, choice).outcome.status == 200
    ensures var u := st.users[session.value];
            |Candidates(Skip(st, session, now, false, choice).store, u)| == |Candidates(st, u)| - 1
  {
    SkipAdvances(st, session, now, false, choice);
    var r := Skip(st, session, now, false, choice);
    var u, sel := st.users[session.value], r.outcome.body.stream;
    var k :| 0 <= k < |st.streams| && st.streams[k] == sel;
    MarkPlayedAt(st.streams, k, now);
    FilterDropsOne(st.streams, k, sel.(played := true, playedAt := Some(now)), Pending(u));
  }

  /** One call of the skip route at time `now`, with the store's pick `choice`. */
  datatype Tick = Tick(now: Timestamp, choice: nat)

  /** A run of skips by one caller, none of them failing in the store: final store and statuses. */
  function RunSkips(st: Store, session: Option<Email>, ticks: seq<Tick>): (r: (Store, seq<nat>))
    ensures |r.1| == |ticks|
    decreases |ticks|
  {
    if ticks == [] then (st, [])
    else
      var step := Skip(st, session, ticks[0].now, false, ticks[0].choice);
      var rest := RunSkips(step.store, session, ticks[1..]);
      (rest.0, [StatusOf(step.outcome)] + rest.1)
  }

  /** Once the caller has no unplayed stream left, a skip is answered "nothing to skip". */
  lemma DrainedRefusesSkip(st: Store, session: Option<Email>, now: Timestamp, choice: nat)
    requires HasEmail(session) && session.value in st.users
    requires Candidates(st, st.users[session.value]) == []
    ensures Skip(st, session, now, false, choice).outcome == Reply(404, Message(NothingToSkip))
  {
    var u := st.users[session.value];
    forall s | s in st.streams && s.owner == u
      ensures s.played
    {
      assert !Pending(u)(s);
    }
  }

  /** While the caller has an unplayed stream, a skip without a store failure succeeds. */
  lemma PendingAllowsSkip(st: Store, session: Option<Email>, now: Timestamp, choice: nat)
    requires HasEmail(session) && session.value in st.users
    requires Candidates(st, st.users[session.value]) != []
    ensures Skip(st, session, now, false, choice).outcome.status == 200
  {
    var c := Candidates(st, st.users[session.value]);
    assert c[0] in c;
  }

  /** Every status in `statuses` is 200. */
  predicate AllOk(statuses: seq<nat>) {
    forall i :: 0 <= i < |statuses| ==> statuses[i] == 200
  }

  lemma AllOkCons(statuses: seq<nat>)
    requires AllOk(statuses)
    ensures AllOk([200] + statuses)
  {
    var xs := [200] + statuses;
    forall i | 0 <= i < |xs|
      ensures xs[i] == 200
    {
      if i > 0 {
        assert xs[i] == statuses[i - 1];
      }
    }
  }

  /**
   * With k unplayed streams, k skips by their creator all succeed and leave
   * no unplayed stream of theirs.
   */
  lemma {:induction false} SkipsDrainQueue(st: Store, session: Option<Email>, ticks: seq<Tick>)
    requires Valid(st) && HasEmail(session) && session.value in st.users
    requires |ticks| == |Candidates(st, st.users[session.value])|
    ensures var run := RunSkips(st, session, ticks);
            && AllOk(run.1)
            && run.0.users == st.users
            && Evolves(st, run.0)
            && Candidates(run.0, st.users[session.value]) == []
    decreases |ticks|
  {
    if ticks != [] {
      var t := ticks[0];
      var step := Skip(st, session, t.now, false, t.choice);
      PendingAllowsSkip(st, session, t.now, t.choice);
      SkipPreservesValid(st, session, t.now, false, t.choice);
      SkipPlaysOne(st, session, t.now, t.choice);
      SkipsDrainQueue(step.store, session, ticks[1..]);
      var run := RunSkips(st, session, ticks);
      var rest := RunSkips(step.store, session, ticks[1..]);
      assert run.0 == rest.0 && run.1 == [200] + rest.1;
      AllOkCons(rest.1);
      EvolvesTransitive(st, step.store, rest.0);
    }
  }

  /** After those k skips, the next one is answered "nothing to skip". */
  lemma SkipAfterDrain(st: Store, session: Option<Email>, ticks: seq<Tick>, now: Timestamp, choice: nat)
    requires Valid(st) && HasEmail(session) && session.value in st.users
    requires |ticks| == |Candidates(st, st.users[session.value])|
    ensures Skip(RunSkips(st, session, ticks).0, session, now, false, choice).outcome == Reply(404, Message(NothingToSkip))
  {
    SkipsDrainQueue(st, session, ticks);
    DrainedRefusesSkip(RunSkips(st, session, ticks).0, session, now, choice);
  }
}

=== FILE: store.dfy ===
/**
 * The database behind the stream routes, as one immutable value: the stream
 * rows in the order the store returns them, the set of upvote rows, the
 * per-creator "current stream" pointers and the user table (email to id).
 * Every route handler is a pure transition from a store to a response and a
 * new store.
 */
module Store {
  import opened Options

  type UserId = string
  type StreamId = string
  type Email = string

  /** The handlers' `new Date()`: an opaque, caller-supplied instant. */
  type Timestamp = nat

  /** The `type` every submitted stream gets. */
  const YoutubeType := "Youtube"

  datatype Stream = Stream(
    id: StreamId,
    owner: UserId,               // the row's `userId`: the creator whose queue it is in
    url: string,
    extractedId: Option<string>,
    kind: string,
    title: Option<string>,
    played: bool,
    playedAt: Option<Timestamp>)

  /** An upvote row: its existence is the vote. */
  datatype Vote = Vote(user: UserId, stream: StreamId)

  datatype Store = Store(
    streams: seq<Stream>,
    votes: set<Vote>,
    current: map<UserId, StreamId>,   // the `currentStream` rows, keyed by creator
    users: map<Email, UserId>)

  /** One element of the list the vote-count route returns. */
  datatype Entry = Entry(id: StreamId, title: Option<string>, upvotes: nat)

  /** The JSON (or text) body of a response. */
  datatype Body =
    | Message(text: string)
    | Created(text: string, id: StreamId)
    | Selected(stream: Stream)
    | Listing(streams: seq<Stream>)
    | Counts(entries: seq<Entry>)
    | Failure(error: string)

  /**
   * What a handler produces: a response it returns, or an exception that
   * escapes it (the framework then answers with status 500 on its own).
   */
  datatype Outcome = Reply(status: nat, body: Body) | Uncaught

  datatype Transition = Transition(outcome: Outcome, store: Store)

  /** A `NextResponse.json(body)` without an explicit status. */
  function Ok(body: Body): Outcome {
    Reply(200, body)
  }

  /** The status the client sees. */
  function StatusOf(o: Outcome): nat {
    match o
    case Reply(status, _) => status
    case Uncaught => 500
  }

  /** The session's email as the handlers read it: a missing or empty email is falsy. */
  predicate HasEmail(session: Option<Email>) {
    session.Some? && session.value != ""
  }

  function Ids(streams: seq<Stream>): set<StreamId> {
    set s | s in streams :: s.id
  }

  /** The upvote rows that reference stream `sid`. */
  function VotesFor(votes: set<Vote>, sid: StreamId): set<Vote> {
    set v | v in votes && v.stream == sid
  }

  /** The vote count of a stream: derived from the rows, never stored. */
  function VoteCount(votes: set<Vote>, sid: StreamId): nat {
    |VotesFor(votes, sid)|
  }

  // ----- invariants of the store -----

  ghost predicate DistinctIds(streams: seq<Stream>) {
    forall i, j :: 0 <= i < |streams| && 0 <= j < |streams| && i != j ==> streams[i].id != streams[j].id
  }

  /** Creator `u` owns a stream with id `sid`. */
  ghost predicate OwnsStream(streams: seq<Stream>, u: UserId, sid: StreamId) {
    exists i :: 0 <= i < |streams| && streams[i].id == sid && streams[i].owner == u
  }

  /**
   * What the schema and the handlers together keep true: stream ids are
   * unique, streams and votes reference existing rows, a stream is played
   * exactly when it has a play time, and a creator's pointer names one of
   * that creator's own streams.
   */
  ghost predicate Valid(st: Store) {
    && DistinctIds(st.streams)
    && (forall i :: 0 <= i < |st.streams| ==> st.streams[i].owner in st.users.Values)
    && (forall i :: 0 <= i < |st.streams| ==> (st.streams[i].played <==> st.streams[i].playedAt.Some?))
    && (forall v :: v in st.votes ==> v.user in st.users.Values && v.stream in Ids(st.streams))
    && (forall u :: u in st.current ==> u in st.users.Values && OwnsStream(st.streams, u, st.current[u]))
  }

  /** A row keeps its identity and content, and once played it is frozen. */
  ghost predicate Persists(s: Stream, s': Stream) {
    && s'.id == s.id && s'.owner == s.owner && s'.url == s.url
    && s'.extractedId == s.extractedId && s'.kind == s.kind && s'.title == s.title
    && (s.played ==> s' == s)
  }

  /**
   * `st'` is a possible later state of `st`: rows are only appended, never
   * removed or reordered, `played` never goes back to false, and the user
   * table is untouched.
   */
  ghost predicate Evolves(st: Store, st': Store) {
    && |st.streams| <= |st'.streams|
    && (forall i :: 0 <= i < |st.streams| ==> Persists(st.streams[i], st'.streams[i]))
    && st'.users == st.users
  }

  lemma EvolvesTransitive(a: Store, b: Store, c: Store)
    requires Evolves(a, b) && Evolves(b, c)
    ensures Evolves(a, c)
  {
  }

  /** Inserting a new row for `sid` raises its count by one and no other. */
  lemma AddVoteCount(votes: set<Vote>, v: Vote, sid: StreamId)
    requires v !in votes
    ensures VoteCount(votes + {v}, sid) == VoteCount(votes, sid) + (if v.stream == sid then 1 else 0)
  {
    if v.stream == sid {
      assert VotesFor(votes + {v}, sid) == VotesFor(votes, sid) + {v};
    } else {
      assert VotesFor(votes + {v}, sid) == VotesFor(votes, sid);
    }
  }

  /** Deleting an existing row for `sid` lowers its count by one and no other. */
  lemma RemoveVoteCount(votes: set<Vote>, v: Vote, sid: StreamId)
    requires v in votes
    ensures VoteCount(votes - {v}, sid) == VoteCount(votes, sid) - (if v.stream == sid then 1 else 0)
  {
    if v.stream == sid {
      assert VotesFor(votes, sid) == VotesFor(votes - {v}, sid) + {v};
    } else {
      assert VotesFor(votes - {v}, sid) == VotesFor(votes, sid);
    }
  }
}

=== FILE: stream_view.dfy ===
/**
 * The creator page (`StreamView`): the queue built from a fetch of the
 * creator's streams, the video playing now, the "play next" button and the
 * truncated titles of the queue list.
 */
module StreamView {
  import opened Options
  import opened Seqs
  import opened Store
  import opened StreamsRoute
  import opened ClientForm

  /** One queue entry of the page. */
  datatype Video = Video(
    id: string,
    title: Option<string>,
    votes: int,
    userVote: VoteMark,
    extractedId: Option<string>)

  /** The row-to-video mapping of `refreshStreams`; `upvotes || 0` defaults a missing count to 0. */
  function ToVideo(r: Row): (v: Video)
    ensures v.id == r.id && v.title == r.title && v.extractedId == r.extractedId
    ensures r.upvotes.None? ==> v.votes == 0
    ensures r.upvotes.Some? ==> v.votes == r.upvotes.value
    ensures v.userVote == Up <==> r.userVote == Some("upvote")
    ensures v.userVote == Down <==> r.userVote == Some("downvote")
  {
    Video(r.id, r.title, r.upvotes.GetOr(0), NormaliseVote(r.userVote), r.extractedId)
  }

  /** The queue, the video playing now and the page's error line. */
  datatype View = View(queue: seq<Video>, current: Option<Video>, error: Option<string>)

  /** The response of a fetch: the rows and the id of `activeStream`, or a failed request. */
  datatype Fetch = Fetched(rows: seq<Row>, active: Option<StreamId>) | FetchFailed

  const LoadFailed := "Failed to load streams. Please try again later."
  const PlayFailed := "Failed to play the next song. Please try again later."

  /** `stream.id !== activeStream?.streamId`: with no active stream nothing is excluded. */
  function NotActive(active: Option<StreamId>): Row -> bool {
    (r: Row) => active.None? || r.id != active.value
  }

  /** The new queue: every fetched row but the active one, in fetch order. */
  function RefreshQueue(rows: seq<Row>, active: Option<StreamId>): (q: seq<Video>)
    ensures |q| <= |rows|
    ensures active.None? ==> |q| == |rows| && forall i :: 0 <= i < |rows| ==> q[i] == ToVideo(rows[i])
    ensures active.Some? ==> forall v :: v in q ==> v.id != active.value
    ensures forall r :: r in rows && (active.None? || r.id != active.value) ==> ToVideo(r) in q
  {
    var kept := Filter(rows, NotActive(active));
    assert active.None? ==> kept == rows by {
      if active.None? {
        FilterKeepsAll(rows, NotActive(active));
      }
    }
    MapSeqHas(kept, ToVideo);
    assert active.Some? ==> forall v :: v in MapSeq(kept, ToVideo) ==> v.id != active.value by {
      forall v | active.Some? && v in MapSeq(kept, ToVideo)
        ensures v.id != active.value
      {
        MapSeqFrom(kept, ToVideo, v);
      }
    }
    MapSeq(kept, ToVideo)
  }

  /** Row ids are unique, as the store's stream ids are. */
  ghost predicate DistinctRowIds(rows: seq<Row>) {
    forall i, j :: 0 <= i < |rows| && 0 <= j < |rows| && i != j ==> rows[i].id != rows[j].id
  }

  /** With unique ids, excluding the active stream removes exactly its row and keeps the order. */
  lemma RefreshQueueRemovesActive(rows: seq<Row>, k: nat)
    requires DistinctRowIds(rows) && k < |rows|
    ensures RefreshQueue(rows, Some(rows[k].id)) == MapSeq(rows[..k] + rows[k + 1..], ToVideo)
  {
    FilterRemovesOnly(rows, k, NotActive(Some(rows[k].id)));
  }

  /** An active id that names no fetched row excludes nothing. */
  lemma RefreshQueueUnknownActive(rows: seq<Row>, a: StreamId)
    requires forall i :: 0 <= i < |rows| ==> rows[i].id != a
    ensures RefreshQueue(rows, Some(a)) == MapSeq(rows, ToVideo)
  {
    FilterKeepsAll(rows, NotActive(Some(a)));
  }

  /** `streams.find(s => s.id === id)`: the first row with that id. */
  function FindById(rows: seq<Row>, id: string): (r: Option<Row>)
    ensures r.None? <==> forall i :: 0 <= i < |rows| ==> rows[i].id != id
    ensures r.Some? ==> exists i :: 0 <= i < |rows| && rows[i] == r.value && r.value.id == id
                                    && forall j :: 0 <= j < i ==> rows[j].id != id
    decreases |rows|
  {
    if rows == [] then None
    else if rows[0].id == id then Some(rows[0])
    else
      var rest := FindById(rows[1..], id);
      assert rest.Some? ==> exists i :: 0 <= i < |rows| && rows[i] == rest.value && rest.value.id == id
                                        && forall j :: 0 <= j < i ==> rows[j].id != id by {
        if rest.Some? {
          var i :| 0 <= i < |rows[1..]| && rows[1..][i] == rest.value && rest.value.id == id
                   && forall j :: 0 <= j < i ==> rows[1..][j].id != id;
          assert rows[i + 1] == rest.value;
          forall j | 0 <= j < i + 1
            ensures rows[j].id != id
          {
            if j > 0 {
              assert rows[j] == rows[1..][j - 1];
            }
          }
        }
      }
      assert rest.None? ==> forall i :: 0 <= i < |rows| ==> rows[i].id != id by {
        if rest.None? {
          forall i | 0 <= i < |rows|
            ensures rows[i].id != id
          {
            if i > 0 {
              assert rows[i] == rows[1..][i - 1];
            }
          }
        }
      }
      rest
  }

  /**
   * The playing video after a fetch: replaced only when there is an active
   * stream, the page is not already playing it, and the fetch contains it.
   */
  function RefreshCurrent(current: Option<Video>, rows: seq<Row>, active: Option<StreamId>): (c: Option<Video>)
    ensures active.None? ==> c == current
    ensures active.Some? && current.Some? && current.value.id == active.value ==> c == current
    ensures c != current ==> active.Some? && c.Some? && c.value.id == active.value
                             && exists r :: r in rows && c.value == ToVideo(r)
    ensures active.Some? && (exists i :: 0 <= i < |rows| && rows[i].id == active.value)
            ==> c.Some? && c.value.id == active.value
  {
    if active.Some? && (current.None? || current.value.id != active.value) then
      var found := FindById(rows, active.value);
      if found.Some? then Some(ToVideo(found.value)) else current
    else current
  }

  /** A second refresh with the same response leaves the playing video alone. */
  lemma RefreshCurrentIdempotent(current: Option<Video>, rows: seq<Row>, active: Option<StreamId>)
    ensures RefreshCurrent(RefreshCurrent(current, rows, active), rows, active) == RefreshCurrent(current, rows, active)
  {
  }

  /** `refreshStreams`: a failed request only shows the error. */
  function Refresh(v: View, f: Fetch): (v': View)
    ensures f.FetchFailed? ==> v' == v.(error := Some(LoadFailed))
    ensures f.Fetched? ==> v'.error == v.error
    ensures f.Fetched? ==> v'.queue == RefreshQueue(f.rows, f.active)
    ensures f.Fetched? ==> v'.current == RefreshCurrent(v.current, f.rows, f.active)
  {
    match f
    case FetchFailed => v.(error := Some(LoadFailed))
    case Fetched(rows, active) => View(RefreshQueue(rows, active), RefreshCurrent(v.current, rows, active), v.error)
  }

  /**
   * The page fed from GET /api/streams: that route sends no `activeStream`,
   * no counts and no `userVote`, so the queue is every stream of the creator
   * (played ones too) at 0 votes with no mark, and the playing video never
   * changes.
   */
  lemma ViewOfCreatorListing(st: Store, creatorId: string, v: View)
    ensures var ls := ListByCreator(st, Some(creatorId), false).body.streams;
            var v' := Refresh(v, Fetched(MapSeq(ls, StreamRow), None));
            && v'.current == v.current
            && |v'.queue| == |ls|
            && forall i :: 0 <= i < |ls| ==>
                 && v'.queue[i].id == ls[i].id && ls[i].owner == creatorId
                 && v'.queue[i].votes == 0 && v'.queue[i].userVote == NoVote
                 && v'.queue[i].extractedId == ls[i].extractedId
  {
    var ls := ListByCreator(st, Some(creatorId), false).body.streams;
    forall i | 0 <= i < |ls|
      ensures ls[i].owner == creatorId
    {
      assert ls[i] in ls;
    }
  }

  /** What the "play next" button does to the page, and whether it calls the skip route. */
  datatype Press = Press(view: View, skipSent: bool)

  /**
   * `playNextSong`: the head of the queue becomes the playing video and the
   * skip route is called; `skipOk` says whether that request succeeded. An
   * empty queue changes nothing and sends nothing.
   */
  function PlayNext(v: View, skipOk: bool): (p: Press)
    ensures v.queue == [] ==> p == Press(v, false)
    ensures v.queue != [] ==>
              && p.skipSent
              && p.view.current.Some? && [p.view.current.value] + p.view.queue == v.queue
              && p.view.error == (if skipOk then v.error else Some(PlayFailed))
  {
    if v.queue == [] then Press(v, false)
    else
      var v' := View(v.queue[1..], Some(v.queue[0]), v.error);
      Press(if skipOk then v' else v'.(error := Some(PlayFailed)), true)
  }

  /** `k` presses of "play next", every skip request succeeding. */
  function PressNext(v: View, k: nat): View
    decreases k
  {
    if k == 0 then v else PressNext(PlayNext(v, true).view, k - 1)
  }

  /**
   * Pressing "play next" k times walks the queue in order: the k-th video
   * plays and the rest of the queue remains.
   */
  lemma {:induction false} PressNextWalksQueue(v: View, k: nat)
    requires 0 < k <= |v.queue|
    ensures PressNext(v, k).current == Some(v.queue[k - 1])
    ensures PressNext(v, k).queue == v.queue[k..]
    ensures PressNext(v, k).error == v.error
    decreases k
  {
    var v1 := PlayNext(v, true).view;
    assert v1.queue == v.queue[1..] && v1.current == Some(v.queue[0]) by {
      assert [v1.current.value] + v1.queue == v.queue;
      assert v1.queue == ([v1.current.value] + v1.queue)[1..];
    }
    if k > 1 {
      PressNextWalksQueue(v1, k - 1);
      assert v.queue[1..][k - 2] == v.queue[k - 1];
      assert v.queue[1..][k - 1..] == v.queue[k..];
    }
  }

  /** The longest title shown in full. */
  const TitleLimit: nat := 35

  /** `title.length > 35 ? `${title.substring(0, 35)}...` : title` */
  function DisplayTitle(t: string): (d: string)
    ensures |t| <= TitleLimit ==> d == t
    ensures |t| > TitleLimit ==> |d| == TitleLimit + 3 && d[..TitleLimit] == t[..TitleLimit] && d[TitleLimit..] == "..."
  {
    if |t| > TitleLimit then t[..TitleLimit] + "..." else t
  }

  /** Truncating a displayed title again changes nothing. */
  lemma DisplayTitleIdempotent(t: string)
    ensures DisplayTitle(DisplayTitle(t)) == DisplayTitle(t)
  {
    if |t| > TitleLimit {
      var d := DisplayTitle(t);
      assert d[..TitleLimit] + "..." == d;
    }
  }
}

=== FILE: streams_route.dfy ===
/**
 * `/api/streams`: POST adds a link to a creator's queue, GET lists the
 * streams of one creator.
 */
module StreamsRoute {
  import opened Options
  import opened Store
  import opened Seqs
  import opened YtLink

  /** A body that `CreateStreamSchema.parse` accepted: both fields are strings. */
  datatype CreateBody = CreateBody(creatorId: string, url: string)

  const WrongFormat := "Wrong URl format"
  const AddFailed := "Error while adding stream here"
  const Added := "Stream added successfully"

  /** The row `stream.create` inserts for an accepted link. */
  function NewStream(id: StreamId, body: CreateBody): Stream {
    Stream(id, body.creatorId, body.url, ServerExtractedId(body.url), YoutubeType, None, false, None)
  }

  /**
   * POST /api/streams. `body` is `None` when the schema rejects the request
   * body, `newId` is the id the store assigns, and `fault` stands for any
   * other failure of the store. The insert also fails when the id is taken
   * or the creator is not a user (the row's key and foreign key); every
   * failure inside the `try` is answered with 411. There is no session check.
   */
  function Submit(st: Store, body: Option<CreateBody>, newId: StreamId, fault: bool): (r: Transition)
    ensures r.outcome.Reply? && (r.outcome.status == 200 || r.outcome.status == 411)
    ensures r.outcome.status == 200 <==>
              && body.Some? && Matches(body.value.url)
              && newId !in Ids(st.streams) && body.value.creatorId in st.users.Values && !fault
    ensures body.Some? && !Matches(body.value.url) ==> r.outcome == Reply(411, Message(WrongFormat))
    ensures r.outcome.status != 200 ==> r.store == st
    ensures r.outcome.status == 200 ==>
              && r.outcome.body == Created(Added, newId)
              && |r.store.streams| == |st.streams| + 1
              && r.store == st.(streams := st.streams + [r.store.streams[|st.streams|]])
              && var s := r.store.streams[|st.streams|];
                 && s.id == newId && s.owner == body.value.creatorId && s.url == body.value.url
                 && s.extractedId == ServerExtractedId(body.value.url)
                 && s.kind == YoutubeType && !s.played && s.playedAt.None?
  {
    if body.None? then
      Transition(Reply(411, Message(AddFailed)), st)
    else if !Matches(body.value.url) then
      Transition(Reply(411, Message(WrongFormat)), st)
    else if newId in Ids(st.streams) || body.value.creatorId !in st.users.Values || fault then
      Transition(Reply(411, Message(AddFailed)), st)
    else
      Transition(Ok(Created(Added, newId)), st.(streams := st.streams + [NewStream(newId, body.value)]))
  }

  /** The filter `where: { userId: c }`. */
  function OwnedBy(c: UserId): Stream -> bool {
    (s: Stream) => s.owner == c
  }

  /**
   * GET /api/streams?creatorId=…: every stream of that creator, played or
   * not, in store order; a missing parameter selects owner "". The handler
   * has no `try`, so a store failure escapes it.
   */
  function ListByCreator(st: Store, creatorId: Option<string>, fault: bool): (o: Outcome)
    ensures fault <==> o.Uncaught?
    ensures o.Reply? ==>
              && o.status == 200 && o.body.Listing?
              && (forall s :: s in o.body.streams <==> s in st.streams && s.owner == creatorId.GetOr(""))
              && IsSubseq(o.body.streams, st.streams)
  {
    if fault then Uncaught
    else Ok(Listing(Filter(st.streams, OwnedBy(creatorId.GetOr("")))))
  }

  /** Appending a row with a fresh id keeps the ids unique. */
  lemma AppendDistinct(streams: seq<Stream>, s: Stream)
    requires DistinctIds(streams) && s.id !in Ids(streams)
    ensures DistinctIds(streams + [s])
  {
    var xs := streams + [s];
    forall i, j | 0 <= i < |xs| && 0 <= j < |xs| && i != j
      ensures xs[i].id != xs[j].id
    {
      if i < |streams| && j < |streams| {
        assert xs[i] == streams[i] && xs[j] == streams[j];
      } else if i < |streams| {
        assert streams[i] in streams;
      } else {
        assert streams[j] in streams;
      }
    }
  }

  /** Appending a row keeps every ownership that held before. */
  lemma AppendOwns(streams: seq<Stream>, s: Stream, u: UserId, sid: StreamId)
    requires OwnsStream(streams, u, sid)
    ensures OwnsStream(streams + [s], u, sid)
  {
    var i :| 0 <= i < |streams| && streams[i].id == sid && streams[i].owner == u;
    assert (streams + [s])[i] == streams[i];
  }

  /**
   * Appending an unplayed row with a fresh id and an existing owner keeps
   * the store valid and is an evolution of it.
   */
  lemma AppendPreservesValid(st: Store, s: Stream)
    requires Valid(st) && s.id !in Ids(st.streams) && s.owner in st.users.Values
    requires !s.played && s.playedAt.None?
    ensures Valid(st.(streams := st.streams + [s])) && Evolves(st, st.(streams := st.streams + [s]))
  {
    var st' := st.(streams := st.streams + [s]);
    AppendDistinct(st.streams, s);
    assert Ids(st'.streams) == Ids(st.streams) + {s.id};
    forall u | u in st'.current
      ensures OwnsStream(st'.streams, u, st'.current[u])
    {
      AppendOwns(st.streams, s, u, st.current[u]);
    }
  }

  /** An accepted submission keeps the store valid and only appends. */
  lemma SubmitPreservesValid(st: Store, body: Option<CreateBody>, newId: StreamId, fault: bool)
    requires Valid(st)
    ensures Valid(Submit(st, body, newId, fault).store)
    ensures Evolves(st, Submit(st, body, newId, fault).store)
  {
    var r := Submit(st, body, newId, fault);
    if r.outcome.status == 200 {
      AppendPreservesValid(st, NewStream(newId, body.value));
    }
  }

  /** A stream that was just added has no upvotes yet. */
  lemma SubmitStartsAtZero(st: Store, body: CreateBody, newId: StreamId, fault: bool)
    requires Valid(st)
    requires Submit(st, Some(body), newId, fault).outcome.status == 200
    ensures VoteCount(Submit(st, Some(body), newId, fault).store.votes, newId) == 0
  {
    assert VotesFor(st.votes, newId) == {};
  }

  /**
   * After an accepted submission the creator's listing is the old listing
   * with the new stream at its end.
   */
  lemma SubmitThenList(st: Store, body: CreateBody, newId: StreamId)
    requires Submit(st, Some(body), newId, false).outcome.status == 200
    ensures ListByCreator(Submit(st, Some(body), newId, false).store, Some(body.creatorId), false)
            == Ok(Listing(Filter(st.streams, OwnedBy(body.creatorId)) + [NewStream(newId, body)]))
  {
    var s := NewStream(newId, body);
    FilterConcat(st.streams, [s], OwnedBy(body.creatorId));
    assert Filter([s], OwnedBy(body.creatorId)) == [s];
  }
}

=== FILE: vote_routes.dfy ===
/**
 * `/api/streams/upvote`: insert the caller's upvote row for a stream, unless
 * it already exists.
 */
module UpvoteRoute {
  import opened Options
  import opened Store
  import opened GetRoute

  const Unauthorized := "Unauthorized"
  const AlreadyUpvoted := "Already upvoted"
  const UpvoteFailed := "Error processing upvote"
  const Upvoted := "Upvoted successfully"

  /**
   * POST /api/streams/upvote. `session` is the session's email, `body` the
   * `streamId` once the schema accepted it, `fault` a failure of the insert.
   * The insert also fails when the stream does not exist (the row's foreign
   * key); the follow-up `stream.update` has empty data and changes nothing.
   */
  function Upvote(st: Store, session: Option<Email>, body: Option<StreamId>, fault: bool): (r: Transition)
    ensures r.outcome.Reply?
    ensures r.store.streams == st.streams && r.store.current == st.current && r.store.users == st.users
    ensures session.None? ==> r.outcome == Reply(401, Message(Unauthorized))
    ensures session.Some? && session.value !in st.users ==> r.outcome == Reply(403, Message(Unauthorized))
    ensures session.Some? && session.value in st.users && body.None? ==> r.outcome == Reply(500, Message(UpvoteFailed))
    ensures session.Some? && session.value in st.users && body.Some? && Vote(st.users[session.value], body.value) in st.votes
            ==> r.outcome == Reply(400, Message(AlreadyUpvoted))
    ensures session.Some? && session.value in st.users && body.Some?
            && Vote(st.users[session.value], body.value) !in st.votes
            && (body.value !in Ids(st.streams) || fault)
            ==> r.outcome == Reply(500, Message(UpvoteFailed))
    ensures r.outcome.status == 200 <==>
              && session.Some? && session.value in st.users && body.Some?
              && Vote(st.users[session.value], body.value) !in st.votes
              && body.value in Ids(st.streams) && !fault
    ensures r.outcome.status != 200 ==> r.store == st
    ensures r.outcome.status == 200 ==>
              && r.outcome.body == Message(Upvoted)
              && r.store.votes == st.votes + {Vote(st.users[session.value], body.value)}
  {
    if session.None? then
      Transition(Reply(401, Message(Unauthorized)), st)
    else if session.value !in st.users then
      Transition(Reply(403, Message(Unauthorized)), st)
    else if body.None? then
      Transition(Reply(500, Message(UpvoteFailed)), st)
    else
      var v := Vote(st.users[session.value], body.value);
      if v in st.votes then
        Transition(Reply(400, Message(AlreadyUpvoted)), st)
      else if body.value !in Ids(st.streams) || fault then
        Transition(Reply(500, Message(UpvoteFailed)), st)
      else
        Transition(Ok(Message(Upvoted)), st.(votes := st.votes + {v}))
  }

  /** A successful upvote raises the voted stream's count by one and no other count. */
  lemma UpvoteCounts(st: Store, session: Option<Email>, sid: StreamId, fault: bool, other: StreamId)
    requires Upvote(st, session, Some(sid), fault).outcome.status == 200
    ensures VoteCount(Upvote(st, session, Some(sid), fault).store.votes, sid) == VoteCount(st.votes, sid) + 1
    ensures other != sid ==>
              VoteCount(Upvote(st, session, Some(sid), fault).store.votes, other) == VoteCount(st.votes, other)
  {
    var v := Vote(st.users[session.value], sid);
    AddVoteCount(st.votes, v, sid);
    AddVoteCount(st.votes, v, other);
  }

  /** Upvoting is not idempotent: repeating a successful upvote is refused and changes nothing. */
  lemma UpvoteTwiceFails(st: Store, session: Option<Email>, sid: StreamId, fault: bool, fault': bool)
    requires Upvote(st, session, Some(sid), fault).outcome.status == 200
    ensures var st' := Upvote(st, session, Some(sid), fault).store;
            Upvote(st', session, Some(sid), fault') == Transition(Reply(400, Message(AlreadyUpvoted)), st')
  {
  }

  lemma UpvotePreservesValid(st: Store, session: Option<Email>, body: Option<StreamId>, fault: bool)
    requires Valid(st)
    ensures Valid(Upvote(st, session, body, fault).store)
    ensures Evolves(st, Upvote(st, session, body, fault).store)
  {
  }

  /**
   * After a successful upvote the vote-count listing shows the voted stream
   * one higher and every other stream as before.
   */
  lemma UpvoteRaisesListedCount(st: Store, session: Option<Email>, sid: StreamId, fault: bool, i: nat)
    requires Upvote(st, session, Some(sid), fault).outcome.status == 200
    requires i < |st.streams|
    ensures var before := ListWithCounts(st, false).body.entries;
            var after := ListWithCounts(Upvote(st, session, Some(sid), fault).store, false).body.entries;
            after[i].upvotes == before[i].upvotes + (if st.streams[i].id == sid then 1 else 0)
  {
    var v := Vote(st.users[session.value], sid);
    var st' := Upvote(st, session, Some(sid), fault).store;
    AddVoteCount(st.votes, v, st.streams[i].id);
    assert VotesFor(st'.votes, st.streams[i].id) == set w | w in st'.votes && w.stream == st.streams[i].id;
  }
}

/**
 * `/api/streams/downvote`: delete the caller's upvote row for a stream.
 * Despite the name there is no negative vote, only retraction.
 */
module DownvoteRoute {
  import opened Options
  import opened Store
  import UpvoteRoute

  const Unauthorized := "Unauthorized"
  const DownvoteFailed := "Error while upvoting stream"

  /**
   * POST /api/streams/downvote. A missing or empty session email and an
   * unknown user are refused with 403; so is anything that throws inside the
   * `try` (a rejected body, a keyed delete with no such row, a store
   * failure). On the success path the handler goes on to parse the already
   * consumed request body a second time, outside the `try`: that throws, so
   * the handler never returns a response, although the row is already gone.
   */
  function Downvote(st: Store, session: Option<Email>, body: Option<StreamId>, fault: bool): (r: Transition)
    ensures r.store.streams == st.streams && r.store.current == st.current && r.store.users == st.users
    ensures !HasEmail(session) ==> r.outcome == Reply(403, Message(Unauthorized))
    ensures HasEmail(session) && session.value !in st.users ==> r.outcome == Reply(403, Message(Unauthorized))
    ensures r.outcome.Reply? ==> r.outcome.status == 403 && r.store == st
    ensures r.outcome.Uncaught? <==>
              && HasEmail(session) && session.value in st.users && body.Some?
              && Vote(st.users[session.value], body.value) in st.votes && !fault
    ensures r.outcome.Uncaught? ==>
              r.store.votes == st.votes - {Vote(st.users[session.value], body.value)}
  {
    if !HasEmail(session) then
      Transition(Reply(403, Message(Unauthorized)), st)
    else if session.value !in st.users then
      Transition(Reply(403, Message(Unauthorized)), st)
    else if body.None? then
      Transition(Reply(403, Message(DownvoteFailed)), st)
    else
      var v := Vote(st.users[session.value], body.value);
      if v !in st.votes || fault then
        Transition(Reply(403, Message(DownvoteFailed)), st)
      else
        Transition(Uncaught, st.(votes := st.votes - {v}))
  }

  /** A retraction that goes through lowers the stream's count by one and no other count. */
  lemma DownvoteCounts(st: Store, session: Option<Email>, sid: StreamId, fault: bool, other: StreamId)
    requires Downvote(st, session, Some(sid), fault).outcome.Uncaught?
    ensures VoteCount(Downvote(st, session, Some(sid), fault).store.votes, sid) == VoteCount(st.votes, sid) - 1
    ensures other != sid ==>
              VoteCount(Downvote(st, session, Some(sid), fault).store.votes, other) == VoteCount(st.votes, other)
  {
    var v := Vote(st.users[session.value], sid);
    RemoveVoteCount(st.votes, v, sid);
    RemoveVoteCount(st.votes, v, other);
  }

  /** With no upvote row to delete, the retraction is refused and nothing changes. */
  lemma DownvoteWithoutVoteFails(st: Store, session: Option<Email>, sid: StreamId, fault: bool)
    requires HasEmail(session) && session.value in st.users
    requires Vote(st.users[session.value], sid) !in st.votes
    ensures Downvote(st, session, Some(sid), fault) == Transition(Reply(403, Message(DownvoteFailed)), st)
  {
  }

  /** An upvote followed by a retraction of the same pair gives back the original store. */
  lemma UpvoteThenDownvote(st: Store, session: Option<Email>, sid: StreamId, fault: bool)
    requires HasEmail(session)
    requires UpvoteRoute.Upvote(st, session, Some(sid), fault).outcome.status == 200
    ensures var mid := UpvoteRoute.Upvote(st, session, Some(sid), fault).store;
            Downvote(mid, session, Some(sid), false) == Transition(Uncaught, st)
  {
    var v := Vote(st.users[session.value], sid);
    assert (st.votes + {v}) - {v} == st.votes;
  }

  lemma DownvotePreservesValid(st: Store, session: Option<Email>, body: Option<StreamId>, fault: bool)
    requires Valid(st)
    ensures Valid(Downvote(st, session, body, fault).store)
    ensures Evolves(st, Downvote(st, session, body, fault).store)
  {
  }
}

=== FILE: yt_link.dfy ===
/**
 * YouTube links: the recogniser for the route's `YT_REGEX`, the server's
 * rule for the stored `extractedId`, and the client's rule for the preview id.
 *
 * The pattern, read piece by piece, is
 *   ^ ((https?:)?//)? (www\.)? (m\.)?
 *     (youtu(be)?\.com/(v/|embed/|watch(/|\?v=)) | youtu\.be/)
 *     ([\w-]{11}) (\S+)? $
 * `IsYtLink` states it as a decomposition of the input, and `Matches` is a
 * hand-written left-to-right matcher proved equal to it.
 */
module YtLink {
  import opened Options
  import opened JsString

  /** Length of the video id the pattern captures. */
  const VideoIdLength: nat := 11

  /** `\w` without the `u` flag: [A-Za-z0-9_]. */
  predicate IsWordChar(c: char) {
    ('a' <= c <= 'z') || ('A' <= c <= 'Z') || ('0' <= c <= '9') || c == '_'
  }

  /** One character of `(?:\w|-)`. */
  predicate IsIdChar(c: char) {
    IsWordChar(c) || c == '-'
  }

  predicate IsVideoId(id: string) {
    |id| == VideoIdLength && forall i :: 0 <= i < |id| ==> IsIdChar(id[i])
  }

  /** `\s`: the ECMAScript WhiteSpace and LineTerminator code points. */
  predicate IsJsWhitespace(c: char) {
    var n := c as int;
    n == 0x20 || (0x09 <= n <= 0x0D) || n == 0xA0 || n == 0x1680
    || (0x2000 <= n <= 0x200A) || n == 0x2028 || n == 0x2029
    || n == 0x202F || n == 0x205F || n == 0x3000 || n == 0xFEFF
  }

  /** Matched by `(?:\S+)?`: any run, possibly empty, of non-whitespace. */
  predicate NoWhitespace(s: string) {
    forall i :: 0 <= i < |s| ==> !IsJsWhitespace(s[i])
  }

  predicate HasPrefix(s: string, p: string) {
    |p| <= |s| && s[..|p|] == p
  }

  // ----- the pattern as a decomposition -----

  /** `(?:(?:https?:)?\/\/)?` */
  predicate IsScheme(p: string) {
    p == "" || p == "//" || p == "http://" || p == "https://"
  }

  /** `(?:www\.)?` */
  predicate IsWww(p: string) {
    p == "" || p == "www."
  }

  /** `(?:m\.)?` */
  predicate IsMobile(p: string) {
    p == "" || p == "m."
  }

  /** `(?:v\/|embed\/|watch(?:\/|\?v=))` */
  predicate IsWatchKind(k: string) {
    k == "v/" || k == "embed/" || k == "watch/" || k == "watch?v="
  }

  /** `(?:youtu(?:be)?\.com\/(?:…)|youtu\.be\/)` */
  predicate IsRoute(p: string) {
    || p == "youtu.be/"
    || (HasPrefix(p, "youtube.com/") && IsWatchKind(p[12..]))
    || (HasPrefix(p, "youtu.com/") && IsWatchKind(p[10..]))
  }

  /** `s` is accepted by `YT_REGEX`. */
  ghost predicate IsYtLink(s: string) {
    exists scheme, www, mobile, route, id, tail ::
      && IsScheme(scheme) && IsWww(www) && IsMobile(mobile) && IsRoute(route)
      && IsVideoId(id) && NoWhitespace(tail)
      && s == scheme + (www + (mobile + (route + (id + tail))))
  }

  // ----- the matcher -----

  function DropOptional(s: string, p: string): string {
    if HasPrefix(s, p) then s[|p|..] else s
  }

  function AfterScheme(s: string): string {
    if HasPrefix(s, "https://") then s[8..]
    else if HasPrefix(s, "http://") then s[7..]
    else if HasPrefix(s, "//") then s[2..]
    else s
  }

  function AfterWatchKind(s: string): Option<string> {
    if HasPrefix(s, "v/") then Some(s[2..])
    else if HasPrefix(s, "embed/") then Some(s[6..])
    else if HasPrefix(s, "watch/") then Some(s[6..])
    else if HasPrefix(s, "watch?v=") then Some(s[8..])
    else None
  }

  function AfterRoute(s: string): Option<string> {
    if HasPrefix(s, "youtu.be/") then Some(s[9..])
    else if HasPrefix(s, "youtube.com/") then AfterWatchKind(s[12..])
    else if HasPrefix(s, "youtu.com/") then AfterWatchKind(s[10..])
    else None
  }

  /** `s.match(YT_REGEX)` is truthy. */
  function Matches(s: string): bool {
    var rest := DropOptional(DropOptional(AfterScheme(s), "www."), "m.");
    match AfterRoute(rest)
    case None => false
    case Some(t) =>
      |t| >= VideoIdLength && IsVideoId(t[..VideoIdLength]) && NoWhitespace(t[VideoIdLength..])
  }

  // ----- matcher and pattern agree -----

  lemma NotPrefixAt(s: string, q: string, i: nat)
    requires i < |q| && (i >= |s| || s[i] != q[i])
    ensures !HasPrefix(s, q)
  {
    if i < |s| && |q| <= |s| {
      assert s[..|q|][i] == s[i];
    }
  }

  lemma PrefixSplits(s: string, p: string)
    requires HasPrefix(s, p)
    ensures s == p + s[|p|..]
  {
  }

  lemma AfterSchemeSound(s: string)
    ensures exists scheme :: IsScheme(scheme) && s == scheme + AfterScheme(s)
  {
    if HasPrefix(s, "https://") {
      PrefixSplits(s, "https://");
      assert IsScheme("https://");
    } else if HasPrefix(s, "http://") {
      PrefixSplits(s, "http://");
      assert IsScheme("http://");
    } else if HasPrefix(s, "//") {
      PrefixSplits(s, "//");
      assert IsScheme("//");
    } else {
      assert s == "" + s;
      assert IsScheme("");
    }
  }

  lemma AfterWatchKindSound(s: string)
    requires AfterWatchKind(s).Some?
    ensures var t := AfterWatchKind(s).value;
            |t| <= |s| && IsWatchKind(s[..|s| - |t|]) && s == s[..|s| - |t|] + t
  {
  }

  /** A host prefix followed by a watch kind: the part before `t` is host and kind. */
  lemma HostThenKindSound(s: string, host: string)
    requires HasPrefix(s, host) && AfterWatchKind(s[|host|..]).Some?
    ensures var t := AfterWatchKind(s[|host|..]).value;
            var route := s[..|s| - |t|];
            |t| <= |s| && HasPrefix(route, host) && IsWatchKind(route[|host|..]) && s == route + t
  {
    var rest := s[|host|..];
    var t := AfterWatchKind(rest).value;
    AfterWatchKindSound(rest);
    var route := s[..|s| - |t|];
    assert route[..|host|] == s[..|host|];
    assert route[|host|..] == rest[..|rest| - |t|];
  }

  lemma AfterRouteSound(s: string)
    requires AfterRoute(s).Some?
    ensures var t := AfterRoute(s).value;
            |t| <= |s| && IsRoute(s[..|s| - |t|]) && s == s[..|s| - |t|] + t
  {
    if HasPrefix(s, "youtu.be/") {
      PrefixSplits(s, "youtu.be/");
    } else if HasPrefix(s, "youtube.com/") {
      HostThenKindSound(s, "youtube.com/");
    } else {
      HostThenKindSound(s, "youtu.com/");
    }
  }

  lemma AfterSchemeOf(scheme: string, rest: string)
    requires IsScheme(scheme)
    requires |rest| > 0 && (rest[0] == 'w' || rest[0] == 'm' || rest[0] == 'y')
    ensures AfterScheme(scheme + rest) == rest
  {
    var s := scheme + rest;
    if scheme == "" {
      NotPrefixAt(s, "https://", 0);
      NotPrefixAt(s, "http://", 0);
      NotPrefixAt(s, "//", 0);
    } else if scheme == "//" {
      NotPrefixAt(s, "https://", 0);
      NotPrefixAt(s, "http://", 0);
      assert s[..2] == "//";
    } else if scheme == "http://" {
      NotPrefixAt(s, "https://", 4);
      assert s[..7] == "http://";
    } else {
      assert s[..8] == "https://";
    }
  }

  lemma DropOptionalOf(opt: string, p: string, rest: string)
    requires opt == "" || opt == p
    requires |p| > 0 && |rest| > 0 && rest[0] != p[0]
    ensures DropOptional(opt + rest, p) == rest
  {
    if opt == "" {
      NotPrefixAt(rest, p, 0);
      assert opt + rest == rest;
    } else {
      assert (opt + rest)[..|p|] == p;
    }
  }

  lemma AfterWatchKindOf(kind: string, t: string)
    requires IsWatchKind(kind)
    ensures AfterWatchKind(kind + t) == Some(t)
  {
    var s := kind + t;
    assert s[..|kind|] == kind;
    if kind == "v/" {
    } else if kind == "embed/" {
      NotPrefixAt(s, "v/", 0);
    } else if kind == "watch/" {
      NotPrefixAt(s, "v/", 0);
      NotPrefixAt(s, "embed/", 0);
    } else {
      NotPrefixAt(s, "v/", 0);
      NotPrefixAt(s, "embed/", 0);
      NotPrefixAt(s, "watch/", 5);
    }
  }

  lemma AfterRouteOf(route: string, t: string)
    requires IsRoute(route)
    ensures AfterRoute(route + t) == Some(t)
  {
    var s := route + t;
    if route == "youtu.be/" {
      assert s[..9] == "youtu.be/";
    } else if HasPrefix(route, "youtube.com/") && IsWatchKind(route[12..]) {
      NotPrefixAt(s, "youtu.be/", 5);
      assert s[..12] == route[..12];
      assert s[12..] == route[12..] + t;
      AfterWatchKindOf(route[12..], t);
    } else {
      NotPrefixAt(s, "youtu.be/", 6);
      NotPrefixAt(s, "youtube.com/", 5);
      assert s[..10] == route[..10];
      assert s[10..] == route[10..] + t;
      AfterWatchKindOf(route[10..], t);
    }
  }

  /** Every decomposition the pattern allows is found by the matcher. */
  lemma MatchesOf(scheme: string, www: string, mobile: string, route: string, id: string, tail: string)
    requires IsScheme(scheme) && IsWww(www) && IsMobile(mobile) && IsRoute(route)
    requires IsVideoId(id) && NoWhitespace(tail)
    ensures Matches(scheme + (www + (mobile + (route + (id + tail)))))
  {
    var t := id + tail;
    var c := route + t;
    var b := mobile + c;
    var a := www + b;
    assert c[0] == 'y' by {
      assert c[0] == route[0];
    }
    assert b[0] == 'm' || b[0] == 'y';
    assert a[0] == 'w' || a[0] == 'm' || a[0] == 'y';
    assert AfterScheme(scheme + a) == a by {
      AfterSchemeOf(scheme, a);
    }
    assert DropOptional(a, "www.") == b by {
      DropOptionalOf(www, "www.", b);
    }
    assert DropOptional(b, "m.") == c by {
      DropOptionalOf(mobile, "m.", c);
    }
    assert AfterRoute(c) == Some(t) by {
      AfterRouteOf(route, t);
    }
    assert t[..VideoIdLength] == id && t[VideoIdLength..] == tail;
  }

  lemma DropOptionalSound(s: string, p: string)
    ensures s == (if HasPrefix(s, p) then p else "") + DropOptional(s, p)
  {
    if HasPrefix(s, p) {
      PrefixSplits(s, p);
    } else {
      assert s == "" + s;
    }
  }

  lemma SplitAtIndex(s: string, n: nat)
    requires n <= |s|
    ensures s == s[..n] + s[n..]
  {
  }

  /** Pieces the pattern allows, glued step by step, make a link it accepts. */
  lemma YtLinkOf(s: string, a: string, b: string, c: string, t: string,
                 scheme: string, www: string, mobile: string, route: string, id: string, tail: string)
    requires IsScheme(scheme) && IsWww(www) && IsMobile(mobile) && IsRoute(route)
    requires IsVideoId(id) && NoWhitespace(tail)
    requires s == scheme + a && a == www + b && b == mobile + c && c == route + t && t == id + tail
    ensures IsYtLink(s)
  {
    assert s == scheme + (www + (mobile + (route + (id + tail))));
  }

  /** Whatever the matcher accepts has a decomposition the pattern allows. */
  lemma MatchesSound(s: string)
    requires Matches(s)
    ensures IsYtLink(s)
  {
    var a := AfterScheme(s);
    var b := DropOptional(a, "www.");
    var c := DropOptional(b, "m.");
    var t := AfterRoute(c).value;
    AfterSchemeSound(s);
    var scheme :| IsScheme(scheme) && s == scheme + a;
    var www := if HasPrefix(a, "www.") then "www." else "";
    DropOptionalSound(a, "www.");
    var mobile := if HasPrefix(b, "m.") then "m." else "";
    DropOptionalSound(b, "m.");
    AfterRouteSound(c);
    var route := c[..|c| - |t|];
    var id := t[..VideoIdLength];
    var tail := t[VideoIdLength..];
    assert t == id + tail by {
      SplitAtIndex(t, VideoIdLength);
    }
    YtLinkOf(s, a, b, c, t, scheme, www, mobile, route, id, tail);
  }

  /** The hand-written matcher accepts exactly the links the pattern describes. */
  lemma MatchesIffYtLink(s: string)
    ensures Matches(s) <==> IsYtLink(s)
  {
    if Matches(s) {
      MatchesSound(s);
    }
    if IsYtLink(s) {
      var scheme, www, mobile, route, id, tail :|
        && IsScheme(scheme) && IsWww(www) && IsMobile(mobile) && IsRoute(route)
        && IsVideoId(id) && NoWhitespace(tail)
        && s == scheme + (www + (mobile + (route + (id + tail))));
      MatchesOf(scheme, www, mobile, route, id, tail);
    }
  }

  // ----- the two id-extraction rules -----

  /** `url.split("?v=")[1]`, stored as the stream's `extractedId`. */
  function ServerExtractedId(url: string): (r: Option<string>)
    ensures r.None? <==> NoOccurrence(url, "?v=")
    ensures r.Some? ==> exists i: nat :: FirstAt(url, "?v=", i) && r.value == SplitHead(url[i + 3..], "?v=")
  {
    SplitSecond(url, "?v=")
  }

  /**
   * `link.includes("v=") ? link.split("v=")[1].split("&")[0] : ""`, the id
   * the client previews and insists on before it posts a link.
   */
  function PreviewId(link: string): (id: string)
    ensures NoOccurrence(link, "v=") ==> id == ""
    ensures !NoOccurrence(link, "v=") ==>
              exists i: nat :: FirstAt(link, "v=", i) && id == SplitHead(SplitHead(link[i + 2..], "v="), "&")
    ensures NoOccurrence(id, "&")
  {
    if Includes(link, "v=") then
      var i := IndexOf(link, "v=").value;
      assert SplitSecond(link, "v=").value == SplitHead(link[i + 2..], "v=");
      SplitHead(SplitSecond(link, "v=").value, "&")
    else ""
  }

  // ----- what the rules give on concrete link shapes -----

  /** The canonical watch-link form a user pastes. */
  const WatchPrefix := "https://www.youtube.com/watch?v="

  lemma IdHasNoChar(id: string, c: char, k: int)
    requires IsVideoId(id) && 0 <= k < |id|
    requires !IsIdChar(c)
    ensures id[k] != c
  {
  }

  lemma ConcatAssoc(a: string, b: string, c: string)
    ensures a + (b + c) == (a + b) + c
  {
  }

  lemma WatchRouteAllowed()
    ensures IsRoute("youtube.com/watch?v=")
  {
    assert "youtube.com/watch?v="[12..] == "watch?v=";
  }

  lemma HostLiteral()
    ensures "www." + "youtube.com/watch?v=" == "www.youtube.com/watch?v="
  {
  }

  lemma WatchPrefixLiteral()
    ensures "https://" + "www.youtube.com/watch?v=" == WatchPrefix
  {
  }

  /** The watch prefix read as scheme, `www.`, no `m.`, and route. */
  lemma WatchPrefixPieces(x: string)
    ensures WatchPrefix + x == "https://" + ("www." + ("" + ("youtube.com/watch?v=" + x)))
  {
    var route, host := "youtube.com/watch?v=", "www.youtube.com/watch?v=";
    assert "" + (route + x) == route + x;
    HostLiteral();
    WatchPrefixLiteral();
    ConcatAssoc("www.", route, x);
    ConcatAssoc("https://", host, x);
  }

  /** Every watch link `WatchPrefix + id + tail` with a whitespace-free tail is accepted. */
  lemma WatchLinkMatches(id: string, tail: string)
    requires IsVideoId(id) && NoWhitespace(tail)
    ensures Matches(WatchPrefix + id + tail)
  {
    assert WatchPrefix + id + tail == WatchPrefix + (id + tail);
    WatchPrefixPieces(id + tail);
    WatchRouteAllowed();
    MatchesOf("https://", "www.", "", "youtube.com/watch?v=", id, tail);
  }

  /** A string has one leftmost occurrence of a separator. */
  lemma FirstAtUnique(s: string, sep: string, i: nat, j: nat)
    requires FirstAt(s, sep, i) && FirstAt(s, sep, j)
    ensures i == j
  {
  }

  /** In a watch link the first `?v=` is the one ending the prefix. */
  lemma WatchPrefixFirstQV(rest: string)
    ensures FirstAt(WatchPrefix + rest, "?v=", 29)
  {
    var s := WatchPrefix + rest;
    forall j: nat | j < 29
      ensures !OccursAt(s, "?v=", j)
    {
      assert s[j] == WatchPrefix[j];
      if OccursAt(s, "?v=", j) {
        OccursAtChar(s, "?v=", j, 0);
      }
    }
    assert s[29..32] == "?v=";
  }

  /** In a watch link the first `v=` is the one ending the prefix. */
  lemma WatchPrefixFirstV(rest: string)
    ensures FirstAt(WatchPrefix + rest, "v=", 30)
  {
    var s := WatchPrefix + rest;
    forall j: nat | j < 30
      ensures !OccursAt(s, "v=", j)
    {
      assert s[j + 1] == WatchPrefix[j + 1];
      if OccursAt(s, "v=", j) {
        OccursAtChar(s, "v=", j, 1);
      }
    }
    assert s[30..32] == "v=";
  }

  /** For a watch link the server keeps the part after the prefix, cut at any further `?v=`. */
  lemma ServerIdOfPrefixed(rest: string)
    ensures ServerExtractedId(WatchPrefix + rest) == Some(SplitHead(rest, "?v="))
  {
    var s := WatchPrefix + rest;
    WatchPrefixFirstQV(rest);
    var i: nat :| FirstAt(s, "?v=", i) && ServerExtractedId(s).value == SplitHead(s[i + 3..], "?v=");
    FirstAtUnique(s, "?v=", i, 29);
    assert s[32..] == rest;
  }

  /** For a watch link the client previews the part after the prefix, cut at `v=` and then at `&`. */
  lemma PreviewIdOfPrefixed(rest: string)
    ensures PreviewId(WatchPrefix + rest) == SplitHead(SplitHead(rest, "v="), "&")
  {
    var s := WatchPrefix + rest;
    WatchPrefixFirstV(rest);
    var i: nat :| FirstAt(s, "v=", i) && PreviewId(s) == SplitHead(SplitHead(s[i + 2..], "v="), "&");
    FirstAtUnique(s, "v=", i, 30);
    assert s[32..] == rest;
  }

  /**
   * The server keeps everything after `?v=` up to any further `?v=`: for a
   * watch link the stored id is the video id followed by the whole tail,
   * trailing `&…` parameters included.
   */
  lemma ServerIdOfWatchLink(id: string, tail: string)
    requires IsVideoId(id) && NoOccurrence(tail, "?v=")
    ensures ServerExtractedId(WatchPrefix + id + tail) == Some(id + tail)
  {
    var rest := id + tail;
    assert WatchPrefix + id + tail == WatchPrefix + rest;
    ServerIdOfPrefixed(rest);
    IdThenTailNoQV(id, tail);
    NoOccurrenceSplitHead(rest, "?v=");
  }

  /** A video id has no `?`, so `?v=` can only occur in what follows it. */
  lemma IdThenTailNoQV(id: string, tail: string)
    requires IsVideoId(id) && NoOccurrence(tail, "?v=")
    ensures NoOccurrence(id + tail, "?v=")
  {
    var rest := id + tail;
    forall j: nat
      ensures !OccursAt(rest, "?v=", j)
    {
      if j < |id| {
        if OccursAt(rest, "?v=", j) {
          OccursAtChar(rest, "?v=", j, 0);
          assert rest[j] == id[j];
          IdHasNoChar(id, '?', j);
        }
      } else {
        OccursAtConcatRight(id, tail, "?v=", j - |id|);
      }
    }
  }

  /** Without the separator, `split(sep)[0]` is the whole string. */
  lemma NoOccurrenceSplitHead(s: string, sep: string)
    requires |sep| > 0 && NoOccurrence(s, sep)
    ensures SplitHead(s, sep) == s
  {
    var r := SplitHead(s, sep);
    assert !OccursAt(s, sep, |r|);
  }

  /** A video id followed by nothing or by `&…` is cut back to the id: no `v=` starts inside it. */
  lemma IdCutAtAmpersand(id: string, tail: string)
    requires IsVideoId(id)
    requires tail == "" || tail[0] == '&'
    ensures SplitHead(SplitHead(id + tail, "v="), "&") == id
  {
    var rest := id + tail;
    forall j: nat | j < |id|
      ensures !OccursAt(rest, "v=", j)
    {
      if OccursAt(rest, "v=", j) {
        OccursAtChar(rest, "v=", j, 1);
      }
    }
    var piece := SplitHead(rest, "v=");
    assert |piece| >= |id|;
    assert piece[..|id|] == id;
    forall j: nat | j < |id|
      ensures !OccursAt(piece, "&", j)
    {
      if OccursAt(piece, "&", j) {
        OccursAtChar(piece, "&", j, 0);
        assert piece[j] == id[j];
        IdHasNoChar(id, '&', j);
      }
    }
    if |piece| > |id| {
      assert piece[|id|] == rest[|id|] == tail[0];
      assert piece[|id|..|id| + 1] == "&";
      assert OccursAt(piece, "&", |id|);
    }
    assert |SplitHead(piece, "&")| == |id|;
  }

  /**
   * The client cuts at the first `&`: for a watch link whose tail is empty or
   * starts with `&`, the preview id is exactly the video id.
   */
  lemma PreviewIdOfWatchLink(id: string, tail: string)
    requires IsVideoId(id)
    requires tail == "" || tail[0] == '&'
    ensures PreviewId(WatchPrefix + id + tail) == id
  {
    assert WatchPrefix + id + tail == WatchPrefix + (id + tail);
    PreviewIdOfPrefixed(id + tail);
    IdCutAtAmpersand(id, tail);
  }

  /** A string with no `=` contains neither `v=` nor `?v=`. */
  lemma NoEqualsNoV(s: string)
    requires forall k :: 0 <= k < |s| ==> s[k] != '='
    ensures NoOccurrence(s, "v=") && NoOccurrence(s, "?v=")
  {
    forall j: nat
      ensures !OccursAt(s, "v=", j) && !OccursAt(s, "?v=", j)
    {
      if OccursAt(s, "v=", j) {
        OccursAtChar(s, "v=", j, 1);
      }
      if OccursAt(s, "?v=", j) {
        OccursAtChar(s, "?v=", j, 2);
      }
    }
  }

  /** The short-link prefix. */
  const ShortPrefix := "https://youtu.be/"

  /** `s` has neither `=` nor `?` anywhere. */
  predicate NoEqualsOrQuery(s: string) {
    forall k :: 0 <= k < |s| ==> s[k] != '=' && s[k] != '?'
  }

  /** Neither the short-link prefix nor a video id holds `=` or `?`. */
  lemma ShortHeadPlain(id: string)
    requires IsVideoId(id)
    ensures NoEqualsOrQuery(ShortPrefix + id)
  {
    var a := ShortPrefix + id;
    forall k | 0 <= k < |a|
      ensures a[k] != '=' && a[k] != '?'
    {
      if k >= 17 {
        assert a[k] == id[k - 17];
        IdHasNoChar(id, '=', k - 17);
        IdHasNoChar(id, '?', k - 17);
      }
    }
  }

  /** Gluing two strings without `=` gives one without `=`. */
  lemma NoEqualsConcat(a: string, b: string)
    requires NoEqualsOrQuery(a) && forall k :: 0 <= k < |b| ==> b[k] != '='
    ensures forall k :: 0 <= k < |a + b| ==> (a + b)[k] != '='
  {
    forall k | 0 <= k < |a + b|
      ensures (a + b)[k] != '='
    {
      if k >= |a| {
        assert (a + b)[k] == b[k - |a|];
      }
    }
  }

  lemma ShortLinkMatches(id: string, tail: string)
    requires IsVideoId(id) && NoWhitespace(tail)
    ensures Matches(ShortPrefix + id + tail)
  {
    assert ShortPrefix + id + tail == "https://" + ("" + ("" + ("youtu.be/" + (id + tail))));
    MatchesOf("https://", "", "", "youtu.be/", id, tail);
  }

  /**
   * A `youtu.be` link whose tail has no `=` is accepted by the pattern, yet
   * carries neither `?v=` nor `v=`: the server stores no extracted id for it
   * and the client computes an empty preview id.
   */
  lemma ShortLinkHasNoId(id: string, tail: string)
    requires IsVideoId(id) && NoWhitespace(tail)
    requires forall k :: 0 <= k < |tail| ==> tail[k] != '='
    ensures Matches(ShortPrefix + id + tail)
    ensures ServerExtractedId(ShortPrefix + id + tail).None?
    ensures PreviewId(ShortPrefix + id + tail) == ""
  {
    ShortLinkMatches(id, tail);
    ShortHeadPlain(id);
    NoEqualsConcat(ShortPrefix + id, tail);
    NoEqualsNoV(ShortPrefix + id + tail);
  }

  /** In `a + "?v=" + x` with a plain `a`, the first `?v=` is the one after `a`. */
  lemma PlainHeadFirstQV(a: string, x: string)
    requires NoEqualsOrQuery(a)
    ensures FirstAt(a + "?v=" + x, "?v=", |a|)
  {
    var s := a + "?v=" + x;
    assert s[|a|..|a| + 3] == "?v=";
    forall j: nat | j < |a|
      ensures !OccursAt(s, "?v=", j)
    {
      assert s[j] == a[j];
      if OccursAt(s, "?v=", j) {
        OccursAtChar(s, "?v=", j, 0);
      }
    }
  }

  /** In `a + "?v=" + x` with a plain `a`, the first `v=` is the one after `a`'s `?`. */
  lemma PlainHeadFirstV(a: string, x: string)
    requires NoEqualsOrQuery(a)
    ensures FirstAt(a + "?v=" + x, "v=", |a| + 1)
  {
    var s := a + "?v=" + x;
    assert s[|a| + 1..|a| + 3] == "v=";
    forall k | 0 <= k <= |a| + 1
      ensures s[k] != '='
    {
      if k < |a| {
        assert s[k] == a[k];
      } else {
        assert s[k] == "?v="[k - |a|];
      }
    }
    forall j: nat | j <= |a|
      ensures !OccursAt(s, "v=", j)
    {
      if OccursAt(s, "v=", j) {
        OccursAtChar(s, "v=", j, 1);
      }
    }
  }

  /**
   * A `youtu.be` link with a `?v=` query is accepted, and then both rules
   * take the query's value for the video id: the server stores it and the
   * client previews it, whatever the path says.
   */
  lemma ShortLinkWithQueryId(id: string, x: string)
    requires IsVideoId(id) && NoWhitespace(x)
    requires forall k :: 0 <= k < |x| ==> x[k] != '=' && x[k] != '&'
    ensures Matches(ShortPrefix + id + "?v=" + x)
    ensures ServerExtractedId(ShortPrefix + id + "?v=" + x) == Some(x)
    ensures PreviewId(ShortPrefix + id + "?v=" + x) == x
  {
    var a := ShortPrefix + id;
    var s := a + "?v=" + x;
    assert NoWhitespace("?v=" + x) by {
      forall k | 0 <= k < |"?v=" + x|
        ensures !IsJsWhitespace(("?v=" + x)[k])
      {
        if k >= 3 {
          assert ("?v=" + x)[k] == x[k - 3];
        }
      }
    }
    assert ShortPrefix + id + "?v=" + x == ShortPrefix + id + ("?v=" + x);
    ShortLinkMatches(id, "?v=" + x);
    ShortHeadPlain(id);
    NoEqualsNoV(x);
    assert s[|a| + 3..] == x;
    PlainHeadFirstQV(a, x);
    var i: nat :| FirstAt(s, "?v=", i) && ServerExtractedId(s).value == SplitHead(s[i + 3..], "?v=");
    FirstAtUnique(s, "?v=", i, |a|);
    NoOccurrenceSplitHead(x, "?v=");
    PlainHeadFirstV(a, x);
    var i': nat :| FirstAt(s, "v=", i') && PreviewId(s) == SplitHead(SplitHead(s[i' + 2..], "v="), "&");
    FirstAtUnique(s, "v=", i', |a| + 1);
    NoOccurrenceSplitHead(x, "v=");
    assert NoOccurrence(x, "&") by {
      forall j: nat
        ensures !OccursAt(x, "&", j)
      {
        if OccursAt(x, "&", j) {
          OccursAtChar(x, "&", j, 0);
        }
      }
    }
    NoOccurrenceSplitHead(x, "&");
  }

  /** Every route the pattern allows begins with `youtu`. */
  lemma RouteStartsYoutu(route: string, x: string)
    requires IsRoute(route)
    ensures OccursAt(route + x, "youtu", 0)
  {
    if HasPrefix(route, "youtube.com/") {
      assert route[..5] == route[..12][..5];
    } else if HasPrefix(route, "youtu.com/") {
      assert route[..5] == route[..10][..5];
    }
    assert route[..5] == "youtu";
    assert (route + x)[0..5] == route[..5];
  }

  /** `youtu` occurs where the route starts. */
  lemma PiecesHaveYoutu(scheme: string, www: string, mobile: string, route: string, x: string)
    requires IsRoute(route)
    ensures OccursAt(scheme + (www + (mobile + (route + x))), "youtu", |scheme| + |www| + |mobile|)
  {
    RouteStartsYoutu(route, x);
    OccursAtConcatRight(mobile, route + x, "youtu", 0);
    OccursAtConcatRight(www, mobile + (route + x), "youtu", |mobile|);
    OccursAtConcatRight(scheme, www + (mobile + (route + x)), "youtu", |www| + |mobile|);
  }

  /** Every link the pattern accepts contains `youtu`. */
  lemma YtLinkHasYoutu(s: string)
    requires IsYtLink(s)
    ensures !NoOccurrence(s, "youtu")
  {
    var scheme, www, mobile, route, id, tail :|
      && IsScheme(scheme) && IsWww(www) && IsMobile(mobile) && IsRoute(route)
      && IsVideoId(id) && NoWhitespace(tail)
      && s == scheme + (www + (mobile + (route + (id + tail))));
    PiecesHaveYoutu(scheme, www, mobile, route, id + tail);
  }

  /** A link in which `youtu` occurs nowhere is refused, whatever its scheme and host. */
  lemma NoYoutuRefused(s: string)
    requires !Includes(s, "youtu")
    ensures !Matches(s)
  {
    if Matches(s) {
      MatchesIffYtLink(s);
      YtLinkHasYoutu(s);
    }
  }

  /** A worked example: a link to another host, whose path merely mentions YouTube, is refused. */
  lemma OtherHostRefused()
    ensures !Matches("https://example.com/notyoutube")
  {
    var s := "https://example.com/notyoutube";
    assert s[..8] == "https://";
    var rest := s[8..];
    assert rest == "example.com/notyoutube";
    NotPrefixAt(rest, "www.", 0);
    NotPrefixAt(rest, "m.", 0);
    NotPrefixAt(rest, "youtu.be/", 0);
    NotPrefixAt(rest, "youtube.com/", 0);
    NotPrefixAt(rest, "youtu.com/", 0);
  }
}
